=== FILE: README.md ===
# CPPG exam bank: question loading and exam assembly in Dafny

This project models the core of a small Flask application for practising
the CPPG (Certified Privacy Protection General) exam. The core covers:

- reading a question spreadsheet into a dictionary of question lists keyed
  by set (subject) number;
- deriving the per-set counts;
- serving the questions: all of them, shuffled, or as a mock exam paper.

Four variants of the loader exist in the repository, and each is modelled:

- `cppg_cbt_server.py` and `api/index.py` read the sheet with pandas
  (`FrameLoader`).
- `api/app.py` reads it with openpyxl, by cell position (`WorkbookLoader`).
- `excel_upload_server.py` reads an uploaded A-to-D sheet with fallback
  column names (`UploadLoader`).

The modules:

| module | file | what it holds |
|---|---|---|
| `Wrappers` | wrappers.dfy | `Option`, the all-or-nothing map over rows, the first-present-key search |
| `PyText` | pytext.dfy | `str.strip`, `str.find`, `str(int)` and `int(str)` as the loaders use them |
| `Options` | options.dfy | cutting the five options out of one cell at the markers ① … ⑤ |
| `Questions` | question.dfy | the question record, the answer table, the generated explanation |
| `QuestionBank` | bank.dfy | the set dictionary (insertion-ordered), grouping with the blank-text drop, flattening, counts |
| `FrameLoader` | frame_loader.dfy | the pandas extractor |
| `WorkbookLoader` | workbook_loader.dfy | the openpyxl extractor |
| `UploadLoader` | upload_loader.dfy | the upload extractor and the upload route's three outcomes |
| `Sampler` | sampler.dfy | `random.sample` and `random.shuffle` as index draws |
| `Exam` | exam.dfy | exam-paper numbering, the CPPG quota sampler, the "10 per set" sampler |
| `Loader` | loader.dfy | the three-path file search, the counts, the lazy globals of `api/app.py` |
| `Views` | views.dfy | the JSON routes: all questions, random order, exam |

Some parts of the program are given as parameters instead:

- The file system is a map from existing paths to their contents.
- A spreadsheet is already parsed into header names and rows.
- Randomness is the list of positions `random.sample` or `random.shuffle`
  chose. Every lemma holds for all such choices.

## Model

| member | source | states |
|---|---|---|
| PyText.Strip | cppg_cbt_server.py:178 | `str.strip`: the result is empty exactly when the input is all whitespace, and otherwise neither starts nor ends with whitespace |
| PyText.StripSlice | cppg_cbt_server.py:178 | what `str.strip` keeps is one contiguous piece of the input with only whitespace before and after it |
| PyText.StripIdempotent | cppg_cbt_server.py:213 | stripping a stripped text changes nothing |
| PyText.Find | cppg_cbt_server.py:171-173 | `str.find`: -1 exactly when the character is absent, otherwise the position of its first occurrence |
| PyText.ParseIntToString | cppg_cbt_server.py:146 | `int(str(n)) == n` for every integer, so a written set or number reads back |
| PyText.IntToStringInjective | cppg_cbt_server.py:206 | different numbers print differently |
| Options.PlaceholderFormat | cppg_cbt_server.py:181 | the stand-in text for option i is `보기 ` followed by `str(i)` |
| Options.PlaceholdersSpelled | cppg_cbt_server.py:186-188 | a sheet without an option column gets exactly `보기 1` … `보기 5` |
| Options.Scan | cppg_cbt_server.py:167-181 | every loop turn appends exactly one option, so after n turns option k is the k-th marker rule's result |
| Options.Pad | cppg_cbt_server.py:183-185 | padding keeps the options found and fills the missing tail with the numbered placeholders |
| Options.SplitOptions | cppg_cbt_server.py:163-191 | an option cell always yields exactly five options; option k comes from the text after marker k, whatever the cell holds |
| Options.OptionsOf | cppg_cbt_server.py:163-191 | five options with or without an option column; without one, the five placeholders |
| Options.NoMarkersGivePlaceholders | cppg_cbt_server.py:169-181 | a cell with no marker at all gives the five placeholders |
| Options.OutOfOrderIsEmpty | cppg_cbt_server.py:171-178 | when marker i+1 comes before marker i, option i is empty |
| Options.OptionBetween | cppg_cbt_server.py:171-178 | the text between marker i and marker i+1, stripped, is option i |
| Options.OptionRunsToEnd | cppg_cbt_server.py:172-177 | when marker i+1 is missing, option i runs to the end of the cell |
| Options.SplitRendered | cppg_cbt_server.py:163-191 | writing five marker-free options after ① … ⑤ and splitting gives back each option stripped |
| Options.RenderRoundTrip | cppg_cbt_server.py:163-191 | for five stripped, marker-free options, splitting the rendered cell gives back the same options |
| Questions.AnswerIndex | cppg_cbt_server.py:194-200 | the correct index is always a valid option (below 5); anything other than a one-character key gives the first option |
| Questions.AnswerNamesOption | cppg_cbt_server.py:197-198 | both the circled digit and the plain digit of option i select option i |
| Questions.AnswerFallsBackToFirst | cppg_cbt_server.py:197-198 | an answer cell that is none of the ten keys selects the first option |
| Questions.ExplanationReadsBack | cppg_cbt_server.py:206 | the generated sentence reads back: the digits before the first '의' parse as the question number, and the text between "의 정답은 " and "입니다." is the option |
| Questions.ExplanationInjective | cppg_cbt_server.py:206 | two generated explanations are equal only for the same number and option, so the sentence can be read back |
| QuestionBank.OpenSet | cppg_cbt_server.py:209-210 | opening a set adds the key, appends it to the order only if new, and changes no list |
| QuestionBank.AppendTo | cppg_cbt_server.py:214 | appending changes only the named set's list, at its end |
| QuestionBank.Insert | cppg_cbt_server.py:208-214 | one row: its set becomes a key even when the text is blank; the question is appended only when its text is not blank |
| QuestionBank.Group | cppg_cbt_server.py:141-214 | the grouped dictionary is well formed: its order lists each key once |
| QuestionBank.GroupContents | cppg_cbt_server.py:208-214 | the keys are exactly the sets named by the rows; each set's list is its non-blank questions in row order |
| QuestionBank.GroupOrder | cppg_cbt_server.py:209-210 | the sets are ordered by their first row |
| QuestionBank.FlattenGroup | api/index.py:206-212 | flattening the dictionary serves every non-blank row exactly once, tagged with its set |
| QuestionBank.TotalIsFlatLength | api/index.py:172-176 | the total count equals the length of the flattened list |
| QuestionBank.Stats | api/index.py:169-179 | one `세트{n}` count per set, in dictionary order, followed by `총문제수`, the total |
| QuestionBank.StatsLabelsDistinct | api/index.py:174-176 | no two sets share a label and none collides with the total's label |
| FrameLoader.FramedCellsRead | cppg_cbt_server.py:145-204 | in a genuine DataFrame each `row.get(column, default)` behind an `in df.columns` test reads the cell, and the default fires only for a missing column |
| FrameLoader.RowOptions | api/index.py:47-73 | every row yields exactly five options |
| FrameLoader.RowCorrect | api/index.py:76-82 | the correct index is always an existing option |
| FrameLoader.RowEntry | cppg_cbt_server.py:141-206 | a row fails exactly when its set or number cell is not an integer; without a set column the row goes to set 1; without a number column its number is its position plus one |
| FrameLoader.Entries | cppg_cbt_server.py:141-214 | decoding succeeds exactly when every row does, and keeps the rows' order |
| FrameLoader.Extract | cppg_cbt_server.py:130-224 | `None` exactly when some row raises; otherwise a well-formed dictionary |
| FrameLoader.ExtractGroups | api/index.py:91-96 | a successful load has every named set, each set's non-blank questions in order, sets in order of first appearance, every non-blank row served once |
| FrameLoader.BlankCellReadsNan | cppg_cbt_server.py:145-199 | a blank cell, read as "nan", is kept as non-blank text, makes the set or number `int()` raise, and as an answer names the first option |
| FrameLoader.NoSetColumnOneSet | cppg_cbt_server.py:145-148 | without a set column, every question lands in set 1 |
| FrameLoader.RowRoundTrip | cppg_cbt_server.py:141-206 | a question written to a row with all six columns reads back as the same question |
| FrameLoader.ExtractRendered | cppg_cbt_server.py:130-220 | a sheet written from a list of questions loads as the grouping of that list |
| WorkbookLoader.Headers | api/app.py:21-24 | one header name per cell of the first row; an empty workbook has none |
| WorkbookLoader.IndexOf | api/app.py:33-94 | the column index is -1 exactly when the header is missing, else the position of its first occurrence |
| WorkbookLoader.RowOptions | api/app.py:54-78 | a row that reads yields exactly five options |
| WorkbookLoader.RowCorrect | api/app.py:81-87 | the correct index is always an existing option |
| WorkbookLoader.RowEntry | api/app.py:29-94 | a row fails exactly when one of its cell reads raises; a row that reads has five options and a valid correct index |
| WorkbookLoader.Entries | api/app.py:29-102 | decoding succeeds exactly when every data row does, and keeps the rows' order |
| WorkbookLoader.Extract | api/app.py:9-109 | `None` exactly when some data row raises; otherwise a well-formed dictionary |
| WorkbookLoader.ExtractGroups | api/app.py:96-102 | a successful load has every named set, the non-blank questions in order, sets in order of first appearance, every non-blank row once |
| WorkbookLoader.FalsySetCellIsSetOne | api/app.py:33-37 | an empty, `None` or 0 set cell puts the row in set 1 |
| WorkbookLoader.EmptyTextTakesFirstCell | api/app.py:47-51 | an empty text cell makes the row's first cell the question text |
| WorkbookLoader.SkippedCellsTakeDefaults | api/app.py:40-94 | a missing column or falsy cell gives the field's default: position number, placeholders, first option, generated explanation |
| WorkbookLoader.ShortRowFailsLoad | api/app.py:33-37 | a data row too short to hold the set column makes the whole load fail |
| WorkbookLoader.ExtractStored | api/app.py:29-105 | a workbook written from questions that survive the truthiness guards loads as the grouping of those questions |
| Wrappers.FirstIn | excel_upload_server.py:35-43 | the nested `row.get` chain settles on the first of its names present, and only falls back when none is |
| UploadLoader.FramedLookup | excel_upload_server.py:35-72 | in a genuine DataFrame the nested `row.get` chain settles on the same column name as the `in df.columns` tests, and its innermost default fires only when the sheet has none of the names |
| UploadLoader.OptionPrecedence | excel_upload_server.py:47-53 | option i comes from `보기{i}`, else `보기{letter}`, else `Option{i}`, else is the letter placeholder |
| UploadLoader.NormaliseIsIdentity | excel_upload_server.py:56-57 | the "all placeholders" replacement never changes the option list |
| UploadLoader.RowOptions | excel_upload_server.py:46-59 | every row yields exactly four options, option k from the k-th column chain |
| UploadLoader.UpperFindsLetterKeys | excel_upload_server.py:65-66 | `answer.upper()` hits a key of `answer_map` exactly when the answer is one of its eight letter keys, and then the same index as the answer itself |
| UploadLoader.LetterIndex | excel_upload_server.py:62-68 | the correct index is always one of the four options |
| UploadLoader.LetterNamesOption | excel_upload_server.py:65-67 | the letter of option i, in either case, selects option i; options B to D are selected by nothing else |
| UploadLoader.RowCorrect | excel_upload_server.py:62-70 | the correct index is always one of the four options, so the generated explanation never raises |
| UploadLoader.RowQuestion | excel_upload_server.py:31-74 | a row fails exactly when its number read fails; a row that reads has four options, a valid correct index and the chosen text |
| UploadLoader.DropBlankNonBlank | excel_upload_server.py:76-78 | every kept question has non-blank text |
| UploadLoader.DropBlankFrom | excel_upload_server.py:76-78 | the kept questions all come from the input, none more often than the input holds it |
| UploadLoader.DropBlankShaped | excel_upload_server.py:76-78 | filtering keeps whatever shape every input question had (four options, a valid correct index) |
| UploadLoader.DropBlankKeepsAll | excel_upload_server.py:76-78 | a list with no blank question passes through unchanged |
| UploadLoader.DropBlankOne | excel_upload_server.py:77-78 | a single question is kept exactly when its text is not blank |
| UploadLoader.DropBlankConcat | excel_upload_server.py:76-78 | filtering distributes over concatenation, so each row is judged on its own |
| UploadLoader.DropBlankKeeps | excel_upload_server.py:76-78 | a question whose text is not blank is kept |
| UploadLoader.Extract | excel_upload_server.py:20-85 | `None` exactly when some row raises; otherwise non-blank four-option questions |
| UploadLoader.UploadOf | excel_upload_server.py:107-127 | an unreadable sheet gives the error, an empty result the "no questions" error, anything else the list with its count |
| UploadLoader.ExtractStored | excel_upload_server.py:31-81 | a sheet written from non-blank questions in the eight upload columns loads as the same list |
| Sampler.DrawIsSubMultiset | cppg_cbt_server.py:249-251 | a draw from distinct positions takes each question at most as often as the pool holds it |
| Sampler.ShuffleIsPermutation | api/index.py:237-238 | a shuffle keeps every question exactly as often as before |
| Exam.Paper | cppg_cbt_server.py:235-263 | the paper is as long as all picks together |
| Exam.PaperNumbering | cppg_cbt_server.py:257-259 | exam numbers run 1, 2, 3, … with no gap or repeat |
| Exam.PaperSection | cppg_cbt_server.py:246-261 | the k-th pick of the i-th set sits after all earlier sets' picks, with its set tag |
| Exam.PaperItemFrom | cppg_cbt_server.py:246-261 | every paper item is a pick of some set, tagged with that set |
| Exam.AssemblePaper | cppg_cbt_server.py:235-263 | the loop builds exactly the paper: every set's picks, in quota order, numbered consecutively |
| Exam.Selected | cppg_cbt_server.py:247-254 | a set in the dictionary contributes min(quota, its size) questions, none more often than it holds them; a missing set contributes none |
| Exam.QuotaSize | cppg_cbt_server.py:246-261 | the paper's length is the sum over the quota of min(quota, set size) |
| Exam.ExamShape | api/index.py:108-145 | the CPPG paper has that length and is numbered 1 … n |
| Exam.ExamItemsFromTheirSet | cppg_cbt_server.py:246-261 | each paper item has a set from 1 to 5 and is a question of that set |
| Exam.SmallSetKeptInOrder | cppg_cbt_server.py:252-254 | a set smaller than its quota is taken whole, in its own order |
| Exam.InlineSelected | api/app.py:200-201 | each set contributes min(10, its size) questions, none more often than it holds them |
| Exam.InlineSize | api/app.py:198-206 | the paper's length is the sum of min(10, set size) over all sets |
| Exam.InlineShape | api/app.py:197-206 | the paper has that length, is numbered 1 … n, and each item is a question of its set |
| Loader.Accept | api/index.py:169-181 | a load succeeds exactly when extraction gave a non-empty dictionary, and then carries its counts ending with the total |
| Loader.LoadWith | api/index.py:147-181 | no candidate path gives `None`; otherwise the first existing path, and only it, is loaded |
| Loader.LoadSheet | api/index.py:147-181 | a successful load gives a well-formed dictionary with at least one set |
| Loader.LoadWorkbook | api/app.py:111-142 | a successful load gives a well-formed dictionary with at least one set |
| Loader.FirstPathWins | api/index.py:156-160 | a file at the first path is used even when the others exist |
| Loader.EmptySetsStillLoad | api/index.py:169-179 | a dictionary whose only set is empty still loads, with counts of 0 |
| Loader.EnsureLoaded | api/app.py:150-153 | a loaded server is left alone; a cold one takes the dictionary and the counts together |
| Loader.EnsureQuestionsOnly | api/app.py:189-192 | a loaded server is left alone; a cold one takes the dictionary and keeps its old counts |
| Loader.LoadRetriedUntilItWorks | api/app.py:191-195 | a failed load leaves the server cold, so the next request tries again; after a success no request reloads |
| Loader.CountsLostAfterApiLoad | api/app.py:191-192 | when an API route loads first, the globals disagree and the index page shows no counts for good |
| Loader.EnsureLoadedStaysConsistent | api/app.py:148-158 | loading both globals together keeps them consistent, so the index page shows the counts of the dictionary it serves |
| Loader.AcceptIsGenuine | api/index.py:169-179 | the counts a load returns are those of its own dictionary |
| Views.FlattenedFromTheirSet | api/index.py:207-212 | each flattened item is a question of the set it is tagged with |
| Views.FlattenedInSetOrder | api/index.py:207-212 | the flat list holds set after set, each in its own order |
| Views.AllQuestions | api/index.py:201-214 | the error exactly when nothing non-empty is loaded; otherwise as many items as the total count, each from its set |
| Views.RandomQuestions | api/index.py:224-240 | the error exactly when nothing is loaded; otherwise the flat list reordered, same questions as often |
| Views.RandomIsReordering | api/index.py:229-238 | the shuffled list is as long as the total and holds exactly the questions of the flat list |
| Views.ExamReply | api/index.py:216-222 | a loaded dictionary always gets a paper of the quota's length, numbered 1 … n |
| Views.InlineExamReply | api/app.py:187-208 | a loaded dictionary always gets a paper of up to 10 questions per set, numbered 1 … n, each question tagged with the set it comes from |

## Left out

- Flask, the HTML templates, the user store, the login and the upload plumbing (`allowed_file`, saving the file) are left out. They are I/O around the core.
- The regex and PDF question extractors and the other scripts of the repository are not part of this model.
- `cppg_cbt_server.py` loads from one fixed path. When `cppg_qa_final.xlsx` is missing, `load_questions_from_file` returns a bare `None` (lines 269-271), which the tuple unpacking at line 292 cannot take. That start-up crash is left out. On every other outcome the single-path loader behaves like `Loader.LoadWith` over one candidate path: a failed extraction or an empty dictionary returns `(None, None)` (line 288), which unpacks and leaves `QUESTIONS_BY_SET` as `None`, as `Accept` gives `None`. The three-path loader of the serverless variants is modelled.
- A blank pandas cell is modelled as the text `nan` that `str()` gives it: a blank text cell is kept as the text "nan", a blank set or number cell makes `int()` fail the load, and a blank answer cell maps to index 0. Float-typed numbers are left out. Python reads `int(3.0)` as 3 where `PyText.ParseInt("3.0")` is `None`. Pandas also turns a whole column with one blank cell to floats, so its answers read "2.0" and map to index 0. openpyxl's float cells are left out for the same reason.
- Boolean and date cells are left out. The openpyxl `Cell` has no such value: Python reads a TRUE set or number cell as `int(True) == 1`, and a date cell makes `int()` raise. The pandas model keeps each cell as its `str()` text, so a boolean cell reads "True" and `PyText.ParseInt("True")` is `None`, where pandas' `int(row.get(...))` on the boolean itself gives 1.
- `PyText.ParseInt` reads an optional sign and ASCII digits around whitespace. Python's `int()` also takes Unicode digits and `_` separators; those are left out.
- `UploadLoader.Upper` upper-cases ASCII letters only. Python's `str.upper` also maps other scripts. This cannot change the answer index, which only looks at `A`–`D`.
- Randomness is not modelled as a distribution. `random.sample` and `random.shuffle` are the positions they chose, and every property holds for every choice.
- Three behaviours of the code that a reader might expect otherwise:
  - A blank or non-numeric set cell makes the pandas loaders' `int()` raise, which fails the whole load. It does not default to set 1.
  - When a marker is missing, the option before it runs to the end of the cell.
  - A set smaller than its CPPG quota is taken in its stored order, not shuffled.
- The pandas `row.get(column, default)` defaults are modelled (`FrameLoader.Get`, `FrameLoader.GetInt`, `UploadLoader.Lookup`). A sheet's rows are not required to carry exactly its columns; for a genuine DataFrame (`FrameLoader.Framed`) the defaults never fire once the column test has passed, as `FrameLoader.FramedCellsRead` and `UploadLoader.FramedLookup` state.

## Findings

| source | as written | input that shows it | evidently intended | confidence | as-written member | corrected member |
|---|---|---|---|---|---|---|
| api/app.py:170-173, 189-192, 212-215 | the API routes load with `QUESTIONS_BY_SET, _ = load_questions_from_file()` and drop the counts; the index route reloads only when `QUESTIONS_BY_SET is None` | a fresh instance whose first request is `/api/questions`, then a request for `/` | the index page shows the counts of the loaded file, as it does when it is visited first | medium, not executed | Loader.EnsureQuestionsOnly, Loader.CountsLostAfterApiLoad | Loader.EnsureLoaded, Loader.EnsureLoadedStaysConsistent |

=== FILE: bank.dfy ===
/** `questions_by_set`: the dictionary from set number to that set's
    questions that the set-based loaders build, and what the server derives
    from it (the flat list of all questions, the per-set counts). */
module QuestionBank {
  import opened Wrappers
  import opened PyText
  import opened Questions

  /** One decoded row: the set number the row names and its question. */
  datatype Entry = Entry(setNo: int, question: Question)

  /** A question as `/api/questions` serves it: the question's dictionary
      with the `set` key added. */
  datatype Served = Served(question: Question, setNo: int)

  /** A Python dict from set number to question list. `order` is the dict's
      insertion order, which `.items()` follows. */
  datatype Bank = Bank(order: seq<int>, buckets: map<int, seq<Question>>)
  {
    /** Every key is listed once in `order`, and `order` lists only keys. */
    ghost predicate Valid() {
      && (forall i, j :: 0 <= i < j < |order| ==> order[i] != order[j])
      && (forall s :: s in buckets <==> s in order)
    }

    /** `questions_by_set.get(s, [])`. */
    function Bucket(s: int): seq<Question> {
      if s in buckets then buckets[s] else []
    }
  }

  /** `{}`. */
  const Empty: Bank := Bank([], map[])

  /** A row survives loading exactly when its text is not blank (`text.strip()` is truthy). */
  predicate Kept(e: Entry) {
    !IsBlank(e.question.text)
  }

  /** `if set_num not in questions_by_set: questions_by_set[set_num] = []`:
      a set seen for the first time gets an empty list at the end of the dict. */
  function OpenSet(b: Bank, s: int): (r: Bank)
    ensures b.Valid() ==> r.Valid()
    ensures s in r.buckets && r.buckets.Keys == b.buckets.Keys + {s}
    ensures r.order == if s in b.buckets then b.order else b.order + [s]
    ensures forall t :: r.Bucket(t) == b.Bucket(t)
  {
    if s in b.buckets then b else Bank(b.order + [s], b.buckets[s := []])
  }

  /** `questions_by_set[set_num].append(question)` on a set already present. */
  function AppendTo(b: Bank, s: int, q: Question): (r: Bank)
    requires s in b.buckets
    ensures b.Valid() ==> r.Valid()
    ensures r.order == b.order && r.buckets.Keys == b.buckets.Keys
    ensures forall t :: t != s ==> r.Bucket(t) == b.Bucket(t)
    ensures r.Bucket(s) == b.Bucket(s) + [q]
  {
    b.(buckets := b.buckets[s := b.buckets[s] + [q]])
  }

  /** One turn of the loaders' row loop: the set's bucket is created even for
      a blank row, and only a row with text is appended to it. */
  function Insert(b: Bank, e: Entry): (r: Bank)
    ensures b.Valid() ==> r.Valid()
    ensures r.buckets.Keys == b.buckets.Keys + {e.setNo}
    ensures forall t :: t != e.setNo ==> r.Bucket(t) == b.Bucket(t)
    ensures r.Bucket(e.setNo) == b.Bucket(e.setNo) + (if Kept(e) then [e.question] else [])
  {
    var withKey := OpenSet(b, e.setNo);
    if Strip(e.question.text) != [] then AppendTo(withKey, e.setNo, e.question) else withKey
  }

  /** The dictionary after the row loop has seen `es`, in sheet order. */
  function Group(es: seq<Entry>): (b: Bank)
    ensures b.Valid()
  {
    if es == [] then Empty else Insert(Group(es[..|es| - 1]), es[|es| - 1])
  }

  /** The set numbers the rows name. */
  function SetsOf(es: seq<Entry>): set<int> {
    set k | 0 <= k < |es| :: es[k].setNo
  }

  /** The questions of set `s`, in sheet order, without the blank ones. */
  function KeptIn(es: seq<Entry>, s: int): seq<Question> {
    if es == [] then []
    else (if es[0].setNo == s && Kept(es[0]) then [es[0].question] else []) + KeptIn(es[1..], s)
  }

  /** Every non-blank row, tagged with its set, in sheet order. */
  function ServedOf(es: seq<Entry>): seq<Served> {
    if es == [] then []
    else (if Kept(es[0]) then [Served(es[0].question, es[0].setNo)] else []) + ServedOf(es[1..])
  }

  /** The position of the first row naming set `s`, or `|es|` when none does. */
  function FirstAt(es: seq<Entry>, s: int): (k: nat)
    ensures k <= |es|
    ensures k < |es| <==> s in SetsOf(es)
    ensures k < |es| ==> es[k].setNo == s
  {
    if es == [] then 0
    else if es[0].setNo == s then 0
    else
      assert forall t :: t in SetsOf(es) && t != es[0].setNo ==> t in SetsOf(es[1..]) by {
        forall t | t in SetsOf(es) && t != es[0].setNo
          ensures t in SetsOf(es[1..])
        {
          var k :| 0 <= k < |es| && es[k].setNo == t;
          assert es[1..][k - 1].setNo == t;
        }
      }
      1 + FirstAt(es[1..], s)
  }

  lemma {:induction false} KeptInSnoc(es: seq<Entry>, e: Entry, s: int)
    ensures KeptIn(es + [e], s) == KeptIn(es, s) + (if e.setNo == s && Kept(e) then [e.question] else [])
    decreases |es|
  {
    if es == [] {
      assert [e][1..] == [];
    } else {
      var head := if es[0].setNo == s && Kept(es[0]) then [es[0].question] else [];
      var last := if e.setNo == s && Kept(e) then [e.question] else [];
      assert (es + [e])[0] == es[0];
      assert (es + [e])[1..] == es[1..] + [e];
      KeptInSnoc(es[1..], e, s);
      assert KeptIn(es + [e], s) == head + (KeptIn(es[1..], s) + last);
      AppendAssoc(head, KeptIn(es[1..], s), last);
    }
  }

  lemma {:induction false} ServedOfSnoc(es: seq<Entry>, e: Entry)
    ensures ServedOf(es + [e]) == ServedOf(es) + (if Kept(e) then [Served(e.question, e.setNo)] else [])
    decreases |es|
  {
    if es == [] {
      assert [e][1..] == [];
    } else {
      var head := if Kept(es[0]) then [Served(es[0].question, es[0].setNo)] else [];
      var last := if Kept(e) then [Served(e.question, e.setNo)] else [];
      assert (es + [e])[0] == es[0];
      assert (es + [e])[1..] == es[1..] + [e];
      ServedOfSnoc(es[1..], e);
      assert ServedOf(es + [e]) == head + (ServedOf(es[1..]) + last);
      AppendAssoc(head, ServedOf(es[1..]), last);
    }
  }

  lemma {:induction false} FirstAtSnoc(es: seq<Entry>, e: Entry, s: int)
    requires s in SetsOf(es)
    ensures FirstAt(es + [e], s) == FirstAt(es, s)
    decreases |es|
  {
    if es[0].setNo != s {
      assert (es + [e])[1..] == es[1..] + [e];
      FirstAtSnoc(es[1..], e, s);
    }
  }

  lemma SetsOfSnoc(es: seq<Entry>, e: Entry)
    ensures SetsOf(es + [e]) == SetsOf(es) + {e.setNo}
  {
    var xs := es + [e];
    assert forall k :: 0 <= k < |es| ==> xs[k] == es[k];
    assert xs[|es|] == e;
  }

  /** The dictionary holds a key for every set a row names, blank rows
      included, and each key's list is that set's non-blank questions in
      sheet order. */
  lemma {:induction false} GroupContents(es: seq<Entry>)
    ensures Group(es).buckets.Keys == SetsOf(es)
    ensures forall s :: Group(es).Bucket(s) == KeptIn(es, s)
    decreases |es|
  {
    if es != [] {
      var p, e := es[..|es| - 1], es[|es| - 1];
      assert es == p + [e];
      GroupContents(p);
      SetsOfSnoc(p, e);
      forall s ensures Group(es).Bucket(s) == KeptIn(es, s) {
        KeptInSnoc(p, e, s);
      }
    }
  }

  /** The sets of `o` are listed in the order they first appear in `es`. */
  ghost predicate InFirstOrder(es: seq<Entry>, o: seq<int>) {
    forall i, j :: 0 <= i < j < |o| ==> FirstAt(es, o[i]) < FirstAt(es, o[j])
  }

  /** The dictionary's keys come in the order their sets first appear in the sheet. */
  lemma {:induction false} GroupOrder(es: seq<Entry>)
    ensures InFirstOrder(es, Group(es).order)
    decreases |es|
  {
    if es != [] {
      var p, e := es[..|es| - 1], es[|es| - 1];
      assert es == p + [e];
      GroupOrder(p);
      GroupContents(p);
      var b := Group(p);
      assert Group(es).order == OpenSet(b, e.setNo).order;
      assert forall s :: s in b.order ==> s in SetsOf(p);
      OrderStep(p, e, b.order);
    }
  }

  /** One more row keeps the known sets in order, and a new set goes last. */
  lemma OrderStep(p: seq<Entry>, e: Entry, o: seq<int>)
    requires InFirstOrder(p, o)
    requires forall s :: s in o ==> s in SetsOf(p)
    ensures InFirstOrder(p + [e], o)
    ensures e.setNo !in SetsOf(p) ==> InFirstOrder(p + [e], o + [e.setNo])
  {
    var es := p + [e];
    forall s | s in o ensures FirstAt(es, s) == FirstAt(p, s) < |p| {
      FirstAtSnoc(p, e, s);
    }
    if e.setNo !in SetsOf(p) {
      FirstAtNew(p, e);
      var o2 := o + [e.setNo];
      forall i, j | 0 <= i < j < |o2| ensures FirstAt(es, o2[i]) < FirstAt(es, o2[j]) {
        assert o2[i] == o[i] && o[i] in o;
        if j < |o| {
          assert o2[j] == o[j] && o[j] in o;
        }
      }
    }
  }

  /** A set no earlier row names first appears at the new row. */
  lemma FirstAtNew(p: seq<Entry>, e: Entry)
    requires e.setNo !in SetsOf(p)
    ensures FirstAt(p + [e], e.setNo) == |p|
  {
    var es := p + [e];
    forall m | 0 <= m < |p| ensures es[m].setNo != e.setNo {
      assert es[m] == p[m] && p[m].setNo in SetsOf(p);
    }
    FirstAtIsFirst(es, e.setNo, |p|);
  }

  /** `FirstAt` finds the one position with no earlier row of the same set. */
  lemma FirstAtIsFirst(es: seq<Entry>, s: int, k: nat)
    requires k < |es| && es[k].setNo == s
    requires forall m :: 0 <= m < k ==> es[m].setNo != s
    ensures FirstAt(es, s) == k
  {
    var f := FirstAt(es, s);
    assert s in SetsOf(es);
    assert es[f].setNo == s;
    FirstAtNoEarlier(es, s, f);
  }

  lemma {:induction false} FirstAtNoEarlier(es: seq<Entry>, s: int, f: nat)
    requires f == FirstAt(es, s)
    ensures forall m :: 0 <= m < f && m < |es| ==> es[m].setNo != s
    decreases |es|
  {
    if es != [] && es[0].setNo != s {
      FirstAtNoEarlier(es[1..], s, f - 1);
      assert forall m :: 1 <= m < f && m < |es| ==> es[m] == es[1..][m - 1];
    }
  }

  /** Set `s`'s questions, each tagged with `s`. */
  function Tag(qs: seq<Question>, s: int): (r: seq<Served>)
    ensures |r| == |qs|
    ensures forall k :: 0 <= k < |qs| ==> r[k] == Served(qs[k], s)
  {
    seq(|qs|, k requires 0 <= k < |qs| => Served(qs[k], s))
  }

  /** The `for set_num, questions in QUESTIONS_BY_SET.items()` loop that
      collects every question, tagged with its set, set after set. */
  function FlattenFrom(order: seq<int>, b: Bank): seq<Served> {
    if order == [] then [] else Tag(b.Bucket(order[0]), order[0]) + FlattenFrom(order[1..], b)
  }

  function Flatten(b: Bank): seq<Served> {
    FlattenFrom(b.order, b)
  }

  /** Buckets of sets not in `order` do not matter. */
  lemma {:induction false} FlattenIgnores(order: seq<int>, b: Bank, c: Bank)
    requires forall t :: t in order ==> b.Bucket(t) == c.Bucket(t)
    ensures FlattenFrom(order, b) == FlattenFrom(order, c)
    decreases |order|
  {
    if order != [] {
      FlattenIgnores(order[1..], b, c);
    }
  }

  /** A new, empty set at the end adds nothing to the list. */
  lemma {:induction false} FlattenNewSet(order: seq<int>, b: Bank, c: Bank, s: int)
    requires c.Bucket(s) == []
    requires forall t :: t != s ==> c.Bucket(t) == b.Bucket(t)
    requires s !in order
    ensures FlattenFrom(order + [s], c) == FlattenFrom(order, b)
    decreases |order|
  {
    if order == [] {
      assert [s][1..] == [];
    } else {
      assert (order + [s])[1..] == order[1..] + [s];
      FlattenNewSet(order[1..], b, c, s);
    }
  }

  lemma TagSnoc(qs: seq<Question>, q: Question, s: int)
    ensures Tag(qs + [q], s) == Tag(qs, s) + [Served(q, s)]
  {
  }

  /** Appending one question to set `s` adds exactly that question, tagged
      `s`, to the flat list. */
  lemma {:induction false} FlattenAppend(order: seq<int>, b: Bank, c: Bank, s: int, q: Question)
    requires forall i, j :: 0 <= i < j < |order| ==> order[i] != order[j]
    requires s in order
    requires c.Bucket(s) == b.Bucket(s) + [q]
    requires forall t :: t != s ==> c.Bucket(t) == b.Bucket(t)
    ensures multiset(FlattenFrom(order, c)) == multiset(FlattenFrom(order, b)) + multiset{Served(q, s)}
    decreases |order|
  {
    DistinctRest(order);
    if order[0] == s {
      AppendedHere(order, b, c, q);
    } else {
      var rest := order[1..];
      assert s in rest;
      FlattenAppend(rest, b, c, s, q);
      assert FlattenFrom(order, c) == Tag(b.Bucket(order[0]), order[0]) + FlattenFrom(rest, c);
    }
  }

  lemma DistinctRest(order: seq<int>)
    requires order != [] && forall i, j :: 0 <= i < j < |order| ==> order[i] != order[j]
    ensures order[0] !in order[1..]
    ensures forall i, j :: 0 <= i < j < |order[1..]| ==> order[1..][i] != order[1..][j]
  {
    var rest := order[1..];
    forall i, j | 0 <= i < j < |rest| ensures rest[i] != rest[j] {
      assert rest[i] == order[i + 1] && rest[j] == order[j + 1];
    }
    forall k | 0 <= k < |rest| ensures rest[k] != order[0] {
      assert rest[k] == order[k + 1];
    }
  }

  /** The step of `FlattenAppend` at the set that grew. */
  lemma AppendedHere(order: seq<int>, b: Bank, c: Bank, q: Question)
    requires order != [] && order[0] !in order[1..]
    requires c.Bucket(order[0]) == b.Bucket(order[0]) + [q]
    requires forall t :: t != order[0] ==> c.Bucket(t) == b.Bucket(t)
    ensures multiset(FlattenFrom(order, c)) == multiset(FlattenFrom(order, b)) + multiset{Served(q, order[0])}
  {
    var s, rest := order[0], order[1..];
    FlattenIgnores(rest, b, c);
    TagSnoc(b.Bucket(s), q, s);
    assert FlattenFrom(order, c) == Tag(b.Bucket(s), s) + [Served(q, s)] + FlattenFrom(rest, b);
  }

  lemma FlattenInsert(b: Bank, e: Entry)
    requires b.Valid()
    ensures multiset(Flatten(Insert(b, e)))
         == multiset(Flatten(b)) + (if Kept(e) then multiset{Served(e.question, e.setNo)} else multiset{})
  {
    var w := OpenSet(b, e.setNo);
    assert Flatten(w) == Flatten(b) by {
      if e.setNo !in b.buckets {
        FlattenNewSet(b.order, b, w, e.setNo);
      }
    }
    if Strip(e.question.text) != [] {
      var c := AppendTo(w, e.setNo, e.question);
      assert Insert(b, e) == c && Kept(e);
      FlattenAppend(w.order, w, c, e.setNo, e.question);
    } else {
      assert Insert(b, e) == w && !Kept(e);
    }
  }

  /** Flattening the grouped dictionary loses and duplicates nothing: it
      serves every non-blank row, tagged with its set, exactly once. */
  lemma {:induction false} FlattenGroup(es: seq<Entry>)
    ensures multiset(Flatten(Group(es))) == multiset(ServedOf(es))
    decreases |es|
  {
    if es != [] {
      var p, e := es[..|es| - 1], es[|es| - 1];
      assert es == p + [e];
      FlattenGroup(p);
      ServedOfSnoc(p, e);
      FlattenInsert(Group(p), e);
    }
  }

  /** The number of questions the loaders count: the sum of the bucket lengths over `order`. */
  function Total(order: seq<int>, b: Bank): nat {
    if order == [] then 0 else |b.Bucket(order[0])| + Total(order[1..], b)
  }

  /** The running total of the statistics loop is the length of the flat list. */
  lemma {:induction false} TotalIsFlatLength(order: seq<int>, b: Bank)
    ensures Total(order, b) == |FlattenFrom(order, b)|
    decreases |order|
  {
    if order != [] {
      TotalIsFlatLength(order[1..], b);
    }
  }

  /** `f'세트{set_num}'`, the statistics key of a set. */
  function SetLabel(s: int): string {
    "세트" + IntToString(s)
  }

  const TotalLabel: string := "총문제수"

  /** The statistics dict, in insertion order: one count per set, then the total. */
  function Stats(b: Bank): (r: seq<(string, int)>)
    ensures |r| == |b.order| + 1
    ensures forall i :: 0 <= i < |b.order| ==> r[i] == (SetLabel(b.order[i]), |b.Bucket(b.order[i])|)
    ensures r[|b.order|] == (TotalLabel, |Flatten(b)|)
  {
    TotalIsFlatLength(b.order, b);
    seq(|b.order|, i requires 0 <= i < |b.order| => (SetLabel(b.order[i]), |b.Bucket(b.order[i])|))
      + [(TotalLabel, Total(b.order, b))]
  }

  /** The statistics keys never collide, so the dict has one entry per set
      plus the total and none overwrites another. */
  lemma StatsLabelsDistinct(s: int, t: int)
    ensures SetLabel(s) == SetLabel(t) <==> s == t
    ensures SetLabel(s) != TotalLabel
  {
    if SetLabel(s) == SetLabel(t) {
      assert IntToString(s) == SetLabel(s)[2..];
      assert IntToString(t) == SetLabel(t)[2..];
      IntToStringInjective(s, t);
    }
    assert SetLabel(s)[0] == '세' && TotalLabel[0] == '총';
  }
}

=== FILE: exam.dfy ===
/** Assembling an exam paper from the set dictionary: `get_exam_questions`
    (cppg_cbt_server.py, api/index.py), which takes a fixed quota from sets
    1 to 5, and the sampler inlined in the exam route of api/app.py, which
    takes up to 10 from every set. */
module Exam {
  import opened Questions
  import opened QuestionBank
  import opened Sampler

  /** A question on the paper: a copy of the question's dictionary with
      `set` and `exam_number` added. */
  datatype ExamItem = ExamItem(question: Question, setNo: int, examNumber: nat)

  /** The questions one set contributes, in paper order. */
  datatype Section = Section(setNo: int, picked: seq<Question>)

  /** How many questions the sections hold together. */
  function Size(sections: seq<Section>): nat {
    if sections == [] then 0 else Size(sections[..|sections| - 1]) + |sections[|sections| - 1].picked|
  }

  /** The section's questions appended after `before` others: each gets
      `exam_number = len(exam_questions) + 1` at the time it is appended. */
  function Number(sec: Section, before: nat): (r: seq<ExamItem>)
    ensures |r| == |sec.picked|
    ensures forall k :: 0 <= k < |r| ==> r[k] == ExamItem(sec.picked[k], sec.setNo, before + k + 1)
  {
    seq(|sec.picked|, k requires 0 <= k < |sec.picked| => ExamItem(sec.picked[k], sec.setNo, before + k + 1))
  }

  /** The `exam_questions` list after the sections have been appended in turn. */
  function Paper(sections: seq<Section>): (r: seq<ExamItem>)
    ensures |r| == Size(sections)
  {
    if sections == [] then []
    else
      var prev := Paper(sections[..|sections| - 1]);
      prev + Number(sections[|sections| - 1], |prev|)
  }

  /** The exam numbers run 1, 2, ... without a gap, however the sections fall. */
  lemma {:induction false} PaperNumbering(sections: seq<Section>)
    ensures forall k :: 0 <= k < |Paper(sections)| ==> Paper(sections)[k].examNumber == k + 1
    decreases |sections|
  {
    if sections != [] {
      var n := |sections| - 1;
      var prev := Paper(sections[..n]);
      PaperNumbering(sections[..n]);
      var p := Paper(sections);
      forall k | 0 <= k < |p| ensures p[k].examNumber == k + 1 {
        if k < |prev| { assert p[k] == prev[k]; } else { assert p[k] == Number(sections[n], |prev|)[k - |prev|]; }
      }
    }
  }

  /** Section `i` occupies the paper from position `Size(sections[..i])` on,
      its questions in order, each tagged with the section's set. */
  lemma {:induction false} PaperSection(sections: seq<Section>, i: nat, k: nat)
    requires i < |sections| && k < |sections[i].picked|
    ensures Size(sections[..i]) + k < |Paper(sections)|
    ensures Paper(sections)[Size(sections[..i]) + k].question == sections[i].picked[k]
    ensures Paper(sections)[Size(sections[..i]) + k].setNo == sections[i].setNo
    decreases |sections|
  {
    var n := |sections| - 1;
    var prev := Paper(sections[..n]);
    assert sections[..n][..i] == sections[..i];
    if i < n {
      PaperSection(sections[..n], i, k);
      SizeGrows(sections, i + 1, n);
      assert sections[..i + 1][..i] == sections[..i];
    } else {
      assert sections[..i] == sections[..n];
    }
  }

  /** A longer prefix of the sections holds at least as many questions. */
  lemma {:induction false} SizeGrows(sections: seq<Section>, i: nat, j: nat)
    requires i <= j <= |sections|
    ensures Size(sections[..i]) <= Size(sections[..j])
    decreases j - i
  {
    if i < j {
      SizeGrows(sections, i, j - 1);
      assert sections[..j][..j - 1] == sections[..j - 1];
    }
  }

  /** Every question on the paper comes from one of the sections, with that
      section's set. */
  lemma {:induction false} PaperItemFrom(sections: seq<Section>, k: nat) returns (i: nat)
    requires k < |Paper(sections)|
    ensures i < |sections|
    ensures Paper(sections)[k].setNo == sections[i].setNo
    ensures Paper(sections)[k].question in sections[i].picked
    decreases |sections|
  {
    var n := |sections| - 1;
    var prev := Paper(sections[..n]);
    if k < |prev| {
      i := PaperItemFrom(sections[..n], k);
      assert Paper(sections)[k] == prev[k];
    } else {
      i := n;
      assert Paper(sections)[k] == Number(sections[n], |prev|)[k - |prev|];
    }
  }

  /** The paper built the way the Python loops build it: one append per
      selected question, the number taken from the list's current length. */
  method AssemblePaper(sections: seq<Section>) returns (paper: seq<ExamItem>)
    ensures paper == Paper(sections)
    ensures |paper| == Size(sections)
  {
    paper := [];
    var i := 0;
    while i < |sections|
      invariant 0 <= i <= |sections|
      invariant paper == Paper(sections[..i])
    {
      var sec := sections[i];
      var j := 0;
      ghost var start := paper;
      while j < |sec.picked|
        invariant 0 <= j <= |sec.picked|
        invariant paper == start + Number(Section(sec.setNo, sec.picked[..j]), |start|)
      {
        var copy := ExamItem(sec.picked[j], sec.setNo, |paper| + 1);
        ghost var before := Number(Section(sec.setNo, sec.picked[..j]), |start|);
        ghost var after := Number(Section(sec.setNo, sec.picked[..j + 1]), |start|);
        assert after == before + [copy];
        paper := paper + [copy];
        j := j + 1;
      }
      assert sec.picked[..j] == sec.picked;
      assert sections[..i + 1][..i] == sections[..i];
      i := i + 1;
    }
    assert sections[..i] == sections;
  }

  /** The CPPG exam's quota: how many questions each subject (set) gets, in
      the order the paper visits them. */
  const CppgQuota: seq<(int, nat)> := [(1, 10), (2, 20), (3, 25), (4, 30), (5, 15)]

  /** Whether `draw` is what `random.sample(pool, quota)` may choose, for
      the set `s` whenever its pool is large enough to be sampled. */
  predicate DrawFits(b: Bank, s: int, quota: nat, draw: seq<nat>) {
    s in b.buckets && |b.buckets[s]| >= quota ==> IsDraw(draw, |b.buckets[s]|, quota)
  }

  /** One step of the quota loop: `quota` questions sampled from a large
      enough set, the whole set in its own order otherwise, nothing from a
      set the dictionary lacks. */
  function Selected(b: Bank, s: int, quota: nat, draw: seq<nat>): (r: seq<Question>)
    requires DrawFits(b, s, quota, draw)
    ensures |r| == if s in b.buckets then Min(quota, |b.buckets[s]|) else 0
    ensures multiset(r) <= multiset(b.Bucket(s))
  {
    if s !in b.buckets then []
    else
      var pool := b.buckets[s];
      if |pool| >= quota then
        DrawIsSubMultiset(pool, draw);
        Pick(pool, draw)
      else pool
  }

  /** Whether the draws fit every step of a quota list. */
  predicate DrawsFit(b: Bank, quota: seq<(int, nat)>, draws: seq<seq<nat>>) {
    |draws| == |quota| && forall i :: 0 <= i < |quota| ==> DrawFits(b, quota[i].0, quota[i].1, draws[i])
  }

  function QuotaSections(b: Bank, quota: seq<(int, nat)>, draws: seq<seq<nat>>): (r: seq<Section>)
    requires DrawsFit(b, quota, draws)
    ensures |r| == |quota|
    ensures forall i :: 0 <= i < |quota| ==> r[i] == Section(quota[i].0, Selected(b, quota[i].0, quota[i].1, draws[i]))
  {
    seq(|quota|, i requires 0 <= i < |quota| && DrawsFit(b, quota, draws) =>
      Section(quota[i].0, Selected(b, quota[i].0, quota[i].1, draws[i])))
  }

  /** `get_exam_questions`: the paper over the CPPG quota. */
  function ExamQuestions(b: Bank, draws: seq<seq<nat>>): (paper: seq<ExamItem>)
    requires DrawsFit(b, CppgQuota, draws)
  {
    Paper(QuotaSections(b, CppgQuota, draws))
  }

  /** What the quota promises: `min(quota, |pool|)` per set present, summed. */
  function QuotaTotal(b: Bank, quota: seq<(int, nat)>): nat {
    if quota == [] then 0
    else
      var n := |quota| - 1;
      var (s, q) := quota[n];
      QuotaTotal(b, quota[..n]) + if s in b.buckets then Min(q, |b.buckets[s]|) else 0
  }

  lemma {:induction false} QuotaSize(b: Bank, quota: seq<(int, nat)>, draws: seq<seq<nat>>)
    requires DrawsFit(b, quota, draws)
    ensures Size(QuotaSections(b, quota, draws)) == QuotaTotal(b, quota)
    decreases |quota|
  {
    if quota != [] {
      var n := |quota| - 1;
      assert DrawsFit(b, quota[..n], draws[..n]) by {
        forall i | 0 <= i < n ensures DrawFits(b, quota[..n][i].0, quota[..n][i].1, draws[..n][i]) {
          assert quota[..n][i] == quota[i] && draws[..n][i] == draws[i];
        }
      }
      QuotaSize(b, quota[..n], draws[..n]);
      var secs := QuotaSections(b, quota, draws);
      assert secs[..n] == QuotaSections(b, quota[..n], draws[..n]);
    }
  }

  /** The paper's length is the sum over the quota of `min(quota, |pool|)`
      for the sets present, and its numbers run from 1 to that length. */
  lemma ExamShape(b: Bank, draws: seq<seq<nat>>)
    requires DrawsFit(b, CppgQuota, draws)
    ensures |ExamQuestions(b, draws)| == QuotaTotal(b, CppgQuota)
    ensures forall k :: 0 <= k < |ExamQuestions(b, draws)| ==> ExamQuestions(b, draws)[k].examNumber == k + 1
  {
    QuotaSize(b, CppgQuota, draws);
    PaperNumbering(QuotaSections(b, CppgQuota, draws));
  }

  /** Every question on the paper belongs to a set from 1 to 5 and comes from
      that set's list; other sets are never visited. */
  lemma ExamItemsFromTheirSet(b: Bank, draws: seq<seq<nat>>, k: nat)
    requires DrawsFit(b, CppgQuota, draws)
    requires k < |ExamQuestions(b, draws)|
    ensures 1 <= ExamQuestions(b, draws)[k].setNo <= 5
    ensures ExamQuestions(b, draws)[k].question in b.Bucket(ExamQuestions(b, draws)[k].setNo)
  {
    var secs := QuotaSections(b, CppgQuota, draws);
    var i := PaperItemFrom(secs, k);
    var item := ExamQuestions(b, draws)[k];
    assert secs[i].setNo == CppgQuota[i].0;
    var picked := Selected(b, CppgQuota[i].0, CppgQuota[i].1, draws[i]);
    assert item.question in multiset(picked);
  }

  /** A set with fewer questions than its quota is copied whole, in its own
      order, into its section of the paper. */
  lemma SmallSetKeptInOrder(b: Bank, draws: seq<seq<nat>>, i: nat, k: nat)
    requires DrawsFit(b, CppgQuota, draws)
    requires i < |CppgQuota| && CppgQuota[i].0 in b.buckets && |b.buckets[CppgQuota[i].0]| < CppgQuota[i].1
    requires k < |b.buckets[CppgQuota[i].0]|
    ensures Size(QuotaSections(b, CppgQuota, draws)[..i]) + k < |ExamQuestions(b, draws)|
    ensures ExamQuestions(b, draws)[Size(QuotaSections(b, CppgQuota, draws)[..i]) + k].question
      == b.buckets[CppgQuota[i].0][k]
  {
    var secs := QuotaSections(b, CppgQuota, draws);
    PaperSection(secs, i, k);
  }

  /** Whether `draw` is what `random.sample(pool, min(10, len(pool)))` may
      choose for a non-empty pool. */
  predicate InlineDrawFits(pool: seq<Question>, draw: seq<nat>) {
    pool != [] ==> IsDraw(draw, |pool|, Min(10, |pool|))
  }

  /** One step of the inline sampler: an empty set is skipped, any other
      gives up to 10 of its questions, in sampled order. */
  function InlineSelected(pool: seq<Question>, draw: seq<nat>): (r: seq<Question>)
    requires InlineDrawFits(pool, draw)
    ensures |r| == Min(10, |pool|)
    ensures multiset(r) <= multiset(pool)
  {
    if pool == [] then []
    else
      DrawIsSubMultiset(pool, draw);
      Pick(pool, draw)
  }

  predicate InlineDrawsFit(b: Bank, draws: seq<seq<nat>>) {
    |draws| == |b.order| && forall i :: 0 <= i < |b.order| ==> InlineDrawFits(b.Bucket(b.order[i]), draws[i])
  }

  function InlineSections(b: Bank, draws: seq<seq<nat>>): (r: seq<Section>)
    requires InlineDrawsFit(b, draws)
    ensures |r| == |b.order|
    ensures forall i :: 0 <= i < |b.order| ==> r[i] == Section(b.order[i], InlineSelected(b.Bucket(b.order[i]), draws[i]))
  {
    seq(|b.order|, i requires 0 <= i < |b.order| && InlineDrawsFit(b, draws) =>
      Section(b.order[i], InlineSelected(b.Bucket(b.order[i]), draws[i])))
  }

  /** The exam route of api/app.py: every set, in dictionary order. */
  function InlineExam(b: Bank, draws: seq<seq<nat>>): seq<ExamItem>
    requires InlineDrawsFit(b, draws)
  {
    Paper(InlineSections(b, draws))
  }

  /** `min(10, |pool|)` summed over the sets of `order`. */
  function InlineTotal(b: Bank, order: seq<int>): nat {
    if order == [] then 0 else InlineTotal(b, order[..|order| - 1]) + Min(10, |b.Bucket(order[|order| - 1])|)
  }

  lemma {:induction false} InlineSize(b: Bank, draws: seq<seq<nat>>, n: nat)
    requires InlineDrawsFit(b, draws) && n <= |b.order|
    ensures Size(InlineSections(b, draws)[..n]) == InlineTotal(b, b.order[..n])
    decreases n
  {
    if n > 0 {
      InlineSize(b, draws, n - 1);
      var secs := InlineSections(b, draws);
      assert secs[..n][..n - 1] == secs[..n - 1];
      assert b.order[..n][..n - 1] == b.order[..n - 1];
    }
  }

  /** The inline paper holds `min(10, |pool|)` questions of each set, numbered
      from 1 without a gap, each from the set it is tagged with. */
  lemma InlineShape(b: Bank, draws: seq<seq<nat>>, k: nat)
    requires InlineDrawsFit(b, draws)
    ensures |InlineExam(b, draws)| == InlineTotal(b, b.order)
    ensures k < |InlineExam(b, draws)| ==> InlineExam(b, draws)[k].examNumber == k + 1
    ensures k < |InlineExam(b, draws)| ==> InlineExam(b, draws)[k].question in b.Bucket(InlineExam(b, draws)[k].setNo)
  {
    var secs := InlineSections(b, draws);
    InlineSize(b, draws, |b.order|);
    assert secs[..|b.order|] == secs && b.order[..|b.order|] == b.order;
    PaperNumbering(secs);
    if k < |InlineExam(b, draws)| {
      var i := PaperItemFrom(secs, k);
      assert InlineExam(b, draws)[k].question in multiset(secs[i].picked);
    }
  }
}

=== FILE: frame_loader.dfy ===
/** The pandas loader shared by the two servers that read the question file
    with `pd.read_excel` (`extract_questions_from_excel` in
    cppg_cbt_server.py and api/index.py, which agree line for line): every
    row becomes a question, filed under its set. */
module FrameLoader {
  import opened Wrappers
  import opened PyText
  import opened Options
  import opened Questions
  import opened QuestionBank

  /** A DataFrame as the loader sees it: the column labels, and for each row
      its cells by label, each already in the form `str(cell)` gives (a blank
      cell reads "nan"). */
  datatype Sheet = Sheet(columns: seq<string>, rows: seq<map<string, string>>)

  /** Which of the known columns the sheet has (`'세트' in df.columns`, ...),
      and the label of its first column (`row.iloc[0]`). */
  datatype Layout = Layout(
    hasSet: bool, hasNumber: bool, hasText: bool, hasOptions: bool,
    hasAnswer: bool, hasExplanation: bool, first: Option<string>)

  function LayoutOf(columns: seq<string>): (l: Layout)
    ensures l.hasSet <==> SetColumn in columns
    ensures l.hasNumber <==> NumberColumn in columns
    ensures l.first.Some? <==> |columns| > 0
  {
    Layout(SetColumn in columns, NumberColumn in columns, TextColumn in columns,
           OptionsColumn in columns, AnswerColumn in columns, ExplanationColumn in columns,
           if |columns| > 0 then Some(columns[0]) else None)
  }

  /** A genuine DataFrame: every row holds a cell under each of the sheet's
      column labels and under no other. */
  predicate Framed(sheet: Sheet) {
    forall k :: 0 <= k < |sheet.rows| ==> sheet.rows[k].Keys == set c | c in sheet.columns
  }

  /** In a genuine DataFrame the default of `row.get` never fires for a
      column the sheet has, and always fires for one it lacks. */
  lemma FramedCellsRead(sheet: Sheet, k: nat, key: string, default: string)
    requires Framed(sheet) && k < |sheet.rows|
    ensures key in sheet.columns ==> Get(sheet.rows[k], key, default) == sheet.rows[k][key]
    ensures key !in sheet.columns ==> Get(sheet.rows[k], key, default) == default
  {
  }

  /** `str(row.get(key, default))`. */
  function Get(row: map<string, string>, key: string, default: string): string {
    if key in row then row[key] else default
  }

  /** `int(row.get(key, default))` for an integer default: the cell's text
      must read as an integer, or the call raises. */
  function GetInt(row: map<string, string>, key: string, default: int): Option<int> {
    if key in row then ParseInt(row[key]) else Some(default)
  }

  /** The set number: `int(row.get('세트', 1))` with the column, 1 without. */
  function RowSet(l: Layout, row: map<string, string>): Option<int> {
    if l.hasSet then GetInt(row, SetColumn, 1) else Some(1)
  }

  /** The question number: `int(row.get('문제번호', index + 1))` with the
      column, `index + 1` without. */
  function RowNumber(l: Layout, row: map<string, string>, index: nat): Option<int> {
    if l.hasNumber then GetInt(row, NumberColumn, index + 1) else Some(index + 1)
  }

  /** The question text: the '문제' cell, else the first cell of the row. */
  function RowText(l: Layout, row: map<string, string>): string {
    if l.hasText then Get(row, TextColumn, "")
    else if l.first.Some? then Get(row, l.first.value, "")
    else ""
  }

  /** The five options, split out of the '보기' cell when there is one. */
  function RowOptions(l: Layout, row: map<string, string>): (opts: seq<string>)
    ensures |opts| == 5
  {
    OptionsOf(if l.hasOptions then Some(Get(row, OptionsColumn, "")) else None)
  }

  /** The correct index from the '답안' cell (its default is "1"), else 0. */
  function RowCorrect(l: Layout, row: map<string, string>): (c: nat)
    ensures c < 5
  {
    if l.hasAnswer then AnswerIndex(Get(row, AnswerColumn, "1")) else 0
  }

  function RowExplanation(l: Layout, row: map<string, string>): Option<string> {
    if l.hasExplanation then Some(Get(row, ExplanationColumn, "")) else None
  }

  /** One turn of the `for index, row in df.iterrows()` loop; `None` when
      `int()` raises on the set or number cell, which aborts the whole load. */
  function RowEntry(l: Layout, row: map<string, string>, index: nat): (r: Option<Entry>)
    ensures r.Some? ==> |r.value.question.options| == 5 && r.value.question.WellFormed()
    ensures r.Some? && !l.hasSet ==> r.value.setNo == 1
    ensures r.Some? && !l.hasNumber ==> r.value.question.number == index + 1
    ensures r.None? <==> RowSet(l, row).None? || RowNumber(l, row, index).None?
  {
    var setNo := RowSet(l, row);
    var number := RowNumber(l, row, index);
    if setNo.None? || number.None? then None
    else
      var options := RowOptions(l, row);
      var correct := RowCorrect(l, row);
      Some(Entry(setNo.value, Assemble(number.value, RowText(l, row), options, correct, RowExplanation(l, row))))
  }

  /** All rows decoded, in order, with the row position as pandas' index; `None`
      as soon as one row fails. */
  function Entries(l: Layout, rows: seq<map<string, string>>): (r: Option<seq<Entry>>)
    ensures r.Some? <==> forall k :: 0 <= k < |rows| ==> RowEntry(l, rows[k], k).Some?
    ensures r.Some? ==> |r.value| == |rows|
    ensures r.Some? ==> forall k :: 0 <= k < |rows| ==> r.value[k] == RowEntry(l, rows[k], k).value
  {
    AllOrNone((row, k) => RowEntry(l, row, k), rows)
  }

  /** `extract_questions_from_excel`: the set dictionary, or `None` when the
      loop raised. */
  function Extract(sheet: Sheet): (r: Option<Bank>)
    ensures r.Some? ==> r.value.Valid()
    ensures r.None? <==> exists k :: 0 <= k < |sheet.rows| && RowEntry(LayoutOf(sheet.columns), sheet.rows[k], k).None?
  {
    match Entries(LayoutOf(sheet.columns), sheet.rows)
    case None => None
    case Some(es) => Some(Group(es))
  }

  /** What a successful load holds: every set some row names, blank rows
      included; under each, that set's non-blank questions in sheet order;
      the sets in order of first appearance; and, flattened, every
      non-blank row exactly once. */
  lemma ExtractGroups(sheet: Sheet)
    requires Extract(sheet).Some?
    ensures var es := Entries(LayoutOf(sheet.columns), sheet.rows).value;
      var b := Extract(sheet).value;
      && b.buckets.Keys == SetsOf(es)
      && (forall s :: b.Bucket(s) == KeptIn(es, s))
      && InFirstOrder(es, b.order)
      && multiset(Flatten(b)) == multiset(ServedOf(es))
  {
    var es := Entries(LayoutOf(sheet.columns), sheet.rows).value;
    GroupContents(es);
    GroupOrder(es);
    FlattenGroup(es);
  }

  /** A blank cell reads "nan": as text it is not blank, as a set or number
      it makes `int()` raise, and as an answer it names the first option. */
  lemma BlankCellReadsNan(l: Layout, row: map<string, string>, index: nat)
    ensures l.hasText && TextColumn in row && row[TextColumn] == "nan" ==> RowText(l, row) == "nan" && !IsBlank(RowText(l, row))
    ensures l.hasSet && SetColumn in row && row[SetColumn] == "nan" ==> RowSet(l, row).None?
    ensures l.hasNumber && NumberColumn in row && row[NumberColumn] == "nan" ==> RowNumber(l, row, index).None?
    ensures l.hasAnswer && AnswerColumn in row && row[AnswerColumn] == "nan" ==> RowCorrect(l, row) == 0
  {
    assert !IsSpace('n');
    assert !IsDigit('n');
    assert Strip("nan") == "nan" by { StripTrimmed("nan"); }
    assert !IsDigits("nan") && !IsDigits("nan"[1..]);
    if l.hasAnswer && AnswerColumn in row && row[AnswerColumn] == "nan" {
      assert forall i :: 1 <= i <= 5 ==> "nan" != [Marker(i)] && "nan" != [DigitChar(i)];
      AnswerFallsBackToFirst("nan");
    }
  }

  /** Without a set column every question lands in set 1. */
  lemma NoSetColumnOneSet(sheet: Sheet)
    requires SetColumn !in sheet.columns
    requires Extract(sheet).Some?
    ensures Extract(sheet).value.buckets.Keys == if sheet.rows == [] then {} else {1}
  {
    var es := Entries(LayoutOf(sheet.columns), sheet.rows).value;
    EntriesWithoutSets(LayoutOf(sheet.columns), sheet.rows, es);
    OneSet(es);
    GroupContents(es);
  }

  lemma EntriesWithoutSets(l: Layout, rows: seq<map<string, string>>, es: seq<Entry>)
    requires Entries(l, rows) == Some(es) && !l.hasSet
    ensures |es| == |rows|
    ensures forall k :: 0 <= k < |es| ==> es[k].setNo == 1
  {
  }

  lemma OneSet(es: seq<Entry>)
    requires forall k :: 0 <= k < |es| ==> es[k].setNo == 1
    ensures SetsOf(es) == if es == [] then {} else {1}
  {
    if es != [] {
      assert es[0].setNo in SetsOf(es);
    }
  }

  /** A question the loader can read back unchanged: five options without
      markers or surrounding whitespace, and a correct index within them. */
  predicate Renderable(e: Entry) {
    && |e.question.options| == 5
    && e.question.correct < 5
    && (forall k :: 0 <= k < 5 ==> NoMarker(e.question.options[k]))
    && (forall k :: 0 <= k < 5 ==> e.question.options[k] == Strip(e.question.options[k]))
  }

  /** The full header row of the question file. */
  const FullColumns: seq<string> :=
    [SetColumn, NumberColumn, TextColumn, OptionsColumn, AnswerColumn, ExplanationColumn]

  /** The row a question is stored as: set and number in decimal, the options
      behind their markers in one cell, the answer as its digit. */
  function RenderRow(e: Entry): map<string, string>
    requires |e.question.options| == 5
  {
    map[SetColumn := IntToString(e.setNo),
        NumberColumn := IntToString(e.question.number),
        TextColumn := e.question.text,
        OptionsColumn := Render(e.question.options),
        AnswerColumn := IntToString(e.question.correct + 1),
        ExplanationColumn := e.question.answer]
  }

  /** The cells of `row` hold `e` the way `RenderRow` writes it. */
  predicate Stores(row: map<string, string>, e: Entry)
    requires |e.question.options| == 5
  {
    && SetColumn in row && row[SetColumn] == IntToString(e.setNo)
    && NumberColumn in row && row[NumberColumn] == IntToString(e.question.number)
    && TextColumn in row && row[TextColumn] == e.question.text
    && OptionsColumn in row && row[OptionsColumn] == Render(e.question.options)
    && AnswerColumn in row && row[AnswerColumn] == IntToString(e.question.correct + 1)
    && ExplanationColumn in row && row[ExplanationColumn] == e.question.answer
  }

  /** The full header row has every known column. */
  lemma FullLayout()
    ensures LayoutOf(FullColumns) == Layout(true, true, true, true, true, true, Some(SetColumn))
  {
    assert FullColumns[0] == SetColumn && FullColumns[1] == NumberColumn && FullColumns[2] == TextColumn;
    assert FullColumns[3] == OptionsColumn && FullColumns[4] == AnswerColumn && FullColumns[5] == ExplanationColumn;
  }

  lemma RenderRowStores(e: Entry)
    requires |e.question.options| == 5
    ensures Stores(RenderRow(e), e)
  {
  }

  lemma StoredSet(l: Layout, row: map<string, string>, e: Entry)
    requires l.hasSet && |e.question.options| == 5 && Stores(row, e)
    ensures RowSet(l, row) == Some(e.setNo)
  {
    ParseIntToString(e.setNo);
  }

  lemma StoredNumber(l: Layout, row: map<string, string>, e: Entry, index: nat)
    requires l.hasNumber && |e.question.options| == 5 && Stores(row, e)
    ensures RowNumber(l, row, index) == Some(e.question.number)
  {
    ParseIntToString(e.question.number);
  }

  lemma StoredOptions(l: Layout, row: map<string, string>, e: Entry)
    requires l.hasOptions && Renderable(e) && Stores(row, e)
    ensures RowOptions(l, row) == e.question.options
  {
    RenderRoundTrip(e.question.options);
  }

  lemma StoredCorrect(l: Layout, row: map<string, string>, e: Entry)
    requires l.hasAnswer && Renderable(e) && Stores(row, e)
    ensures RowCorrect(l, row) == e.question.correct
  {
    AnswerNamesOption(e.question.correct + 1);
  }

  /** A row holding a question's cells under a header with every known
      column reads back as that question. */
  lemma StoredRow(l: Layout, row: map<string, string>, e: Entry, index: nat)
    requires l.hasSet && l.hasNumber && l.hasText && l.hasOptions && l.hasAnswer && l.hasExplanation
    requires Renderable(e) && Stores(row, e)
    ensures RowEntry(l, row, index) == Some(e)
  {
    StoredSet(l, row, e);
    StoredNumber(l, row, e, index);
    StoredOptions(l, row, e);
    StoredCorrect(l, row, e);
  }

  /** Reading a stored row gives back the stored question, in any row position. */
  lemma RowRoundTrip(e: Entry, index: nat)
    requires Renderable(e)
    ensures RowEntry(LayoutOf(FullColumns), RenderRow(e), index) == Some(e)
  {
    FullLayout();
    RenderRowStores(e);
    StoredRow(LayoutOf(FullColumns), RenderRow(e), e, index);
  }

  /** The sheet that stores `es`, one row each. */
  function RenderSheet(es: seq<Entry>): (sheet: Sheet)
    requires forall k :: 0 <= k < |es| ==> Renderable(es[k])
    ensures |sheet.rows| == |es|
  {
    Sheet(FullColumns, seq(|es|, k requires 0 <= k < |es| && Renderable(es[k]) => RenderRow(es[k])))
  }

  lemma EntriesRendered(es: seq<Entry>)
    requires forall k :: 0 <= k < |es| ==> Renderable(es[k])
    ensures Entries(LayoutOf(FullColumns), RenderSheet(es).rows) == Some(es)
  {
    var rows := RenderSheet(es).rows;
    forall k | 0 <= k < |es| ensures RowEntry(LayoutOf(FullColumns), rows[k], k) == Some(es[k]) {
      assert rows[k] == RenderRow(es[k]);
      RowRoundTrip(es[k], k);
    }
    EntriesOfDecodedRows(LayoutOf(FullColumns), rows, es);
  }

  /** Rows that each decode to the matching entry decode, together, to the entries. */
  lemma EntriesOfDecodedRows(l: Layout, rows: seq<map<string, string>>, es: seq<Entry>)
    requires |rows| == |es|
    requires forall k :: 0 <= k < |es| ==> RowEntry(l, rows[k], k) == Some(es[k])
    ensures Entries(l, rows) == Some(es)
  {
    var r := Entries(l, rows);
    assert r.Some?;
    assert |r.value| == |es|;
    assert forall k :: 0 <= k < |es| ==> r.value[k] == es[k];
    assert r.value == es;
  }

  /** Loading a stored sheet gives the dictionary grouping its questions,
      so the loader inverts `RenderSheet` up to that grouping. */
  lemma ExtractRendered(es: seq<Entry>)
    requires forall k :: 0 <= k < |es| ==> Renderable(es[k])
    ensures Extract(RenderSheet(es)) == Some(Group(es))
  {
    EntriesRendered(es);
  }
}

=== FILE: loader.dfy ===
/** `load_questions_from_file` of the serverless variants (api/index.py and
    api/app.py): find the question file among three candidate paths, extract
    it, and derive the per-set counts; and the lazy loading of api/app.py,
    whose routes load the dictionary on first use. */
module Loader {
  import opened Wrappers
  import opened QuestionBank
  import FrameLoader
  import WorkbookLoader

  /** The paths tried, in order. */
  const CandidatePaths: seq<string> := ["cppg_qa_final.xlsx", "../cppg_qa_final.xlsx", "./cppg_qa_final.xlsx"]

  /** The dictionary and its counts, as `load_questions_from_file` returns them. */
  datatype Loaded = Loaded(bank: Bank, stats: seq<(string, int)>)

  /** `if questions_by_set:` — only a non-empty dictionary is accepted, and it
      comes with its counts. */
  function Accept(extracted: Option<Bank>): (r: Option<Loaded>)
    ensures r.Some? <==> extracted.Some? && extracted.value.buckets != map[]
    ensures r.Some? ==> r.value.bank == extracted.value
    ensures r.Some? ==> |r.value.stats| == |r.value.bank.order| + 1
    ensures r.Some? ==> r.value.stats[|r.value.bank.order|] == (TotalLabel, |Flatten(r.value.bank)|)
  {
    if extracted.Some? && extracted.value.buckets != map[] then Some(Loaded(extracted.value, Stats(extracted.value))) else None
  }

  /** The loader, for files that read as `F` and an extractor for them: the
      first candidate path that exists is read (`disk` maps each existing path
      to its contents); a missing file, a failed extraction and an empty
      dictionary all give `(None, None)`. */
  function LoadWith<F>(disk: map<string, F>, extract: F -> Option<Bank>): (r: Option<Loaded>)
    ensures (forall k :: 0 <= k < |CandidatePaths| ==> CandidatePaths[k] !in disk) ==> r.None?
    ensures forall k :: (0 <= k < |CandidatePaths| && CandidatePaths[k] in disk
      && (forall j :: 0 <= j < k ==> CandidatePaths[j] !in disk)) ==> r == Accept(extract(disk[CandidatePaths[k]]))
  {
    var i := FirstIn(CandidatePaths, disk.Keys);
    if i < 0 then None else Accept(extract(disk[CandidatePaths[i]]))
  }

  /** The loader of api/index.py, over pandas sheets. */
  function LoadSheet(disk: map<string, FrameLoader.Sheet>): (r: Option<Loaded>)
    ensures r.Some? ==> r.value.bank.Valid() && r.value.bank.order != []
  {
    SheetLoadIsValid(disk);
    LoadWith(disk, FrameLoader.Extract)
  }

  lemma SheetLoadIsValid(disk: map<string, FrameLoader.Sheet>)
    ensures var r := LoadWith(disk, FrameLoader.Extract);
      r.Some? ==> r.value.bank.Valid() && r.value.bank.order != []
  {
    var r := LoadWith(disk, FrameLoader.Extract);
    if r.Some? {
      var i := FirstIn(CandidatePaths, disk.Keys);
      assert r.value.bank == FrameLoader.Extract(disk[CandidatePaths[i]]).value;
      NonEmptyHasOrder(r.value.bank);
    }
  }

  /** The loader of api/app.py, over openpyxl workbooks. */
  function LoadWorkbook(disk: map<string, WorkbookLoader.Workbook>): (r: Option<Loaded>)
    ensures r.Some? ==> r.value.bank.Valid() && r.value.bank.order != []
  {
    WorkbookLoadIsValid(disk);
    LoadWith(disk, WorkbookLoader.Extract)
  }

  lemma WorkbookLoadIsValid(disk: map<string, WorkbookLoader.Workbook>)
    ensures var r := LoadWith(disk, WorkbookLoader.Extract);
      r.Some? ==> r.value.bank.Valid() && r.value.bank.order != []
  {
    var r := LoadWith(disk, WorkbookLoader.Extract);
    if r.Some? {
      var i := FirstIn(CandidatePaths, disk.Keys);
      assert r.value.bank == WorkbookLoader.Extract(disk[CandidatePaths[i]]).value;
      NonEmptyHasOrder(r.value.bank);
    }
  }

  /** A valid, non-empty dictionary has a set to iterate over. */
  lemma NonEmptyHasOrder(b: Bank)
    requires b.Valid()
    ensures b.order == [] ==> b.buckets == map[]
  {
    if b.order == [] {
      assert forall s :: s !in b.buckets;
    }
  }

  /** A file at the first path hides the others, broken or not. */
  lemma FirstPathWins<F>(disk: map<string, F>, extract: F -> Option<Bank>)
    requires CandidatePaths[0] in disk
    ensures LoadWith(disk, extract) == Accept(extract(disk[CandidatePaths[0]]))
  {
  }

  /** A dictionary whose sets are all empty is still a load, with counts of 0. */
  lemma EmptySetsStillLoad(s: int)
    ensures Accept(Some(Bank([s], map[s := []]))).Some?
    ensures Accept(Some(Bank([s], map[s := []]))).value.stats == [(SetLabel(s), 0), (TotalLabel, 0)]
  {
    var b := Bank([s], map[s := []]);
    assert Flatten(b) == [] by {
      assert FlattenFrom([s][1..], b) == [];
    }
  }

  /** The server's globals in api/app.py: `QUESTIONS_BY_SET` and `STATS`. */
  datatype Server = Server(questions: Option<Bank>, stats: Option<seq<(string, int)>>)

  /** Both globals start as `None`. */
  const Cold: Server := Server(None, None)

  /** `if QUESTIONS_BY_SET is None: QUESTIONS_BY_SET, STATS =
      load_questions_from_file()`, as the index route does it: both globals
      are loaded when the dictionary is missing; `attempt` is what the loader
      returns at that moment. */
  function EnsureLoaded(s: Server, attempt: Option<Loaded>): (r: Server)
    ensures s.questions.Some? ==> r == s
    ensures s.questions.None? ==> (r.questions.Some? <==> attempt.Some?)
  {
    if s.questions.Some? then s
    else match attempt
      case None => Server(None, None)
      case Some(l) => Server(Some(l.bank), Some(l.stats))
  }

  /** The same step as the API routes write it: `QUESTIONS_BY_SET, _ =
      load_questions_from_file()` loads the dictionary and drops its counts. */
  function EnsureQuestionsOnly(s: Server, attempt: Option<Loaded>): (r: Server)
    ensures s.questions.Some? ==> r == s
    ensures s.questions.None? ==> (r.questions.Some? <==> attempt.Some?)
    ensures r.stats == s.stats
  {
    if s.questions.Some? then s
    else match attempt
      case None => s.(questions := None)
      case Some(l) => s.(questions := Some(l.bank))
  }

  /** What the index page shows: the load error, or the counts held in `STATS`. */
  datatype IndexPage = LoadError | Counts(stats: Option<seq<(string, int)>>)

  function IndexPageOf(s: Server): (p: IndexPage)
    ensures p.LoadError? <==> s.questions.None?
  {
    if s.questions.None? then LoadError else Counts(s.stats)
  }

  /** A failed load leaves the server cold, so the next request tries again;
      a successful one is never repeated. */
  lemma LoadRetriedUntilItWorks(s: Server, first: Option<Loaded>, second: Option<Loaded>)
    requires s.questions.None? && first.None?
    ensures EnsureQuestionsOnly(EnsureQuestionsOnly(s, first), second).questions == if second.Some? then Some(second.value.bank) else None
    ensures second.Some? ==> forall third :: EnsureQuestionsOnly(EnsureQuestionsOnly(EnsureQuestionsOnly(s, first), second), third) == EnsureQuestionsOnly(EnsureQuestionsOnly(s, first), second)
  {
  }

  /** Once an API route has loaded the dictionary, the index page has it but
      shows no counts: `STATS` stays `None` for good. */
  lemma CountsLostAfterApiLoad(l: Loaded, later: Option<Loaded>)
    ensures !Consistent(EnsureQuestionsOnly(Cold, Some(l)))
    ensures IndexPageOf(EnsureLoaded(EnsureQuestionsOnly(Cold, Some(l)), later)) == Counts(None)
  {
  }

  /** The globals agree: counts are present exactly when the dictionary is,
      and they are its counts. */
  predicate Consistent(s: Server) {
    && (s.questions.Some? <==> s.stats.Some?)
    && (s.questions.Some? ==> s.stats.value == Stats(s.questions.value))
  }

  /** What a load may return: a dictionary with its own counts. */
  predicate Genuine(attempt: Option<Loaded>) {
    attempt.Some? ==> attempt.value.stats == Stats(attempt.value.bank)
  }

  /** When every route loads through `EnsureLoaded`, each request keeps the
      globals consistent, so a loaded index page always shows the counts of
      the dictionary it serves. */
  lemma EnsureLoadedStaysConsistent(s: Server, attempt: Option<Loaded>)
    requires Consistent(s) && Genuine(attempt)
    ensures Consistent(EnsureLoaded(s, attempt))
    ensures IndexPageOf(EnsureLoaded(s, attempt)).Counts? ==>
      IndexPageOf(EnsureLoaded(s, attempt)).stats == Some(Stats(EnsureLoaded(s, attempt).questions.value))
  {
  }

  /** Every load result is genuine. */
  lemma AcceptIsGenuine(extracted: Option<Bank>)
    ensures Genuine(Accept(extracted))
  {
  }
}

=== FILE: options.dfy ===
/** Cutting the five answer options of a question out of one free-text
    spreadsheet cell, where the options are introduced by the circled digits
    ① to ⑤ (code points 9312 to 9316). */
module Options {
  import opened Wrappers
  import opened PyText

  /** The marker in front of option `i`, `chr(9311 + i)`: ① for 1, …, ⑤ for 5. */
  function Marker(i: nat): char
    requires 1 <= i <= 5
  {
    (9311 + i) as char
  }

  /** `f"보기 {i}"`, the text standing in for option `i` when its marker is
      missing (`i` is a single digit here; see `PlaceholderFormat`). */
  function Placeholder(i: nat): string
    requires 1 <= i <= 5
  {
    "보기 " + [DigitChar(i)]
  }

  /** The placeholder is the f-string `f"보기 {i}"`, with `str(i)` inside. */
  lemma PlaceholderFormat(i: nat)
    requires 1 <= i <= 5
    ensures Placeholder(i) == "보기 " + IntToString(i)
  {
  }

  /** The options of a question that has no option cell at all. */
  function Placeholders(): seq<string> {
    [Placeholder(1), Placeholder(2), Placeholder(3), Placeholder(4), Placeholder(5)]
  }

  /** True of a text in which none of the five markers occurs. */
  predicate NoMarker(t: string) {
    forall j :: 1 <= j <= 5 ==> Marker(j) !in t
  }

  /** Python's `s[lo:hi]` for indices inside `s`: empty when `hi` comes before `lo`. */
  function Slice(s: string, lo: nat, hi: nat): (r: string)
    requires lo <= |s| && hi <= |s|
  {
    if lo <= hi then s[lo..hi] else []
  }

  /** Where the text of option `i` stops: at the first marker `i + 1`, or at
      the end of the cell when `i` is 5 or that marker is missing. */
  function OptionEnd(blob: string, i: nat): (e: nat)
    requires 1 <= i <= 5
    ensures e <= |blob|
  {
    if i < 5 then
      var e := Find(blob, Marker(i + 1));
      if e == -1 then |blob| else e
    else |blob|
  }

  /** Option `i` of a cell: the stripped text after the first marker `i`, up to
      `OptionEnd`; the placeholder when marker `i` does not occur. */
  function OptionAt(blob: string, i: nat): string
    requires 1 <= i <= 5
  {
    if Marker(i) in blob then Strip(Slice(blob, Find(blob, Marker(i)) + 1, OptionEnd(blob, i)))
    else Placeholder(i)
  }

  /** The options list after `n` turns of the `for i in range(1, 6)` loop:
      every turn appends exactly one option. */
  function Scan(blob: string, n: nat): (opts: seq<string>)
    requires n <= 5
    ensures |opts| == n
    ensures forall k :: 0 <= k < n ==> opts[k] == OptionAt(blob, k + 1)
  {
    if n == 0 then []
    else
      var prev := Scan(blob, n - 1);
      var last := OptionAt(blob, n);
      var opts := prev + [last];
      assert forall k :: 0 <= k < n ==> opts[k] == OptionAt(blob, k + 1) by {
        forall k | 0 <= k < n
          ensures opts[k] == OptionAt(blob, k + 1)
        {
          if k < n - 1 { assert opts[k] == prev[k]; } else { assert opts[k] == last; }
        }
      }
      opts
  }

  /** The `while len(options) < 5` loop: tops a short list up with placeholders. */
  function Pad(opts: seq<string>): (r: seq<string>)
    ensures |r| == if |opts| < 5 then 5 else |opts|
    ensures r[..|opts|] == opts
    ensures forall k :: |opts| <= k < |r| ==> 1 <= k + 1 <= 5 && r[k] == Placeholder(k + 1)
    decreases 5 - |opts|
  {
    if |opts| < 5 then
      var r := Pad(opts + [Placeholder(|opts| + 1)]);
      assert r[..|opts|] == r[..|opts| + 1][..|opts|];
      r
    else opts
  }

  /** `options[:5]` after both loops over a present option cell. The padding
      never adds anything and the cut never removes anything: option `k` is
      exactly what the scan found for marker `k`. */
  function SplitOptions(blob: string): (opts: seq<string>)
    ensures |opts| == 5
    ensures forall k :: 0 <= k < 5 ==> opts[k] == OptionAt(blob, k + 1)
  {
    var scanned := Scan(blob, 5);
    var padded := Pad(scanned);
    assert padded == scanned;
    padded[..5]
  }

  /** The options of a question: split from the option cell when there is one
      (`None` stands for a sheet without the `보기` column), five placeholders
      otherwise. */
  function OptionsOf(cell: Option<string>): (opts: seq<string>)
    ensures |opts| == 5
    ensures cell.None? ==> opts == Placeholders()
  {
    match cell
    case None => Placeholders()
    case Some(blob) => SplitOptions(blob)
  }

  /** The placeholders spelled out, as `["보기 1", …, "보기 5"]`. */
  lemma PlaceholdersSpelled()
    ensures Placeholders() == ["보기 1", "보기 2", "보기 3", "보기 4", "보기 5"]
  {
    assert IntToString(1) == "1" && IntToString(2) == "2" && IntToString(3) == "3";
    assert IntToString(4) == "4" && IntToString(5) == "5";
    assert Placeholder(1) == "보기 1" && Placeholder(2) == "보기 2" && Placeholder(3) == "보기 3";
    assert Placeholder(4) == "보기 4" && Placeholder(5) == "보기 5";
  }

  /** A cell without any marker yields the five placeholders, like a missing cell. */
  lemma {:induction false} NoMarkersGivePlaceholders(blob: string)
    requires NoMarker(blob)
    ensures SplitOptions(blob) == Placeholders()
  {
    var opts := SplitOptions(blob);
    forall k | 0 <= k < 5
      ensures opts[k] == Placeholders()[k]
    {
      assert Marker(k + 1) !in blob;
    }
  }

  /** When marker `i + 1` comes before marker `i`, option `i` is the empty string. */
  lemma OutOfOrderIsEmpty(blob: string, i: nat)
    requires 1 <= i < 5
    requires Marker(i) in blob && Marker(i + 1) in blob
    requires Find(blob, Marker(i + 1)) < Find(blob, Marker(i))
    ensures OptionAt(blob, i) == ""
  {
    StripTrimmed([]);
  }

  /** A marker-free text between marker `i` and marker `i + 1` (or the end of
      the cell, for ⑤) is option `i`, stripped. */
  lemma {:induction false} OptionBetween(pre: string, t: string, rest: string, i: nat)
    requires 1 <= i <= 5
    requires Marker(i) !in pre && NoMarker(t)
    requires i < 5 ==> Marker(i + 1) !in pre && |rest| > 0 && rest[0] == Marker(i + 1)
    requires i == 5 ==> rest == []
    ensures OptionAt(pre + [Marker(i)] + t + rest, i) == Strip(t)
  {
    var m := Marker(i);
    var blob := pre + [m] + t + rest;
    assert blob == pre + ([m] + t + rest);
    FindAfter(pre, [m] + t + rest, m);
    FindFirst([m] + t + rest, m, 0);
    assert Find(blob, m) == |pre|;
    if i < 5 {
      var m' := Marker(i + 1);
      assert m' != m;
      assert m' !in pre + [m] + t by {
        assert m' !in t;
      }
      FindAfter(pre + [m] + t, rest, m');
      FindFirst(rest, m', 0);
      assert OptionEnd(blob, i) == |pre| + 1 + |t|;
    }
    assert blob[|pre| + 1..|pre| + 1 + |t|] == t;
  }

  /** The cell text a question's five options are stored as:
      `①` + t1 + `②` + t2 + … + `⑤` + t5, from option `i` on. */
  function RenderFrom(ts: seq<string>, i: nat): string
    requires |ts| == 5 && 1 <= i <= 6
    decreases 6 - i
  {
    if i == 6 then [] else [Marker(i)] + ts[i - 1] + RenderFrom(ts, i + 1)
  }

  /** The part of the rendered cell that comes before marker `i`. */
  function RenderBefore(ts: seq<string>, i: nat): string
    requires |ts| == 5 && 1 <= i <= 6
  {
    if i == 1 then [] else RenderBefore(ts, i - 1) + [Marker(i - 1)] + ts[i - 2]
  }

  /** The whole option cell holding five texts. */
  function Render(ts: seq<string>): string
    requires |ts| == 5
  {
    RenderFrom(ts, 1)
  }

  lemma {:induction false} RenderSplits(ts: seq<string>, i: nat)
    requires |ts| == 5 && 1 <= i <= 6
    ensures Render(ts) == RenderBefore(ts, i) + RenderFrom(ts, i)
    decreases i
  {
    if i > 1 {
      RenderSplits(ts, i - 1);
      assert RenderFrom(ts, i - 1) == [Marker(i - 1)] + ts[i - 2] + RenderFrom(ts, i);
    }
  }

  lemma {:induction false} RenderBeforeMarkers(ts: seq<string>, i: nat, j: nat)
    requires |ts| == 5 && 1 <= i <= 6 && i <= j <= 5
    requires forall k :: 0 <= k < 5 ==> NoMarker(ts[k])
    ensures Marker(j) !in RenderBefore(ts, i)
    decreases i
  {
    if i > 1 {
      RenderBeforeMarkers(ts, i - 1, j);
      assert Marker(j) !in ts[i - 2];
    }
  }

  /** The rendered cell around option `i`: what comes before marker `i`,
      the marker, the option's text, and the rest. */
  lemma RenderedAround(ts: seq<string>, i: nat)
    requires |ts| == 5 && 1 <= i <= 5
    ensures Render(ts) == RenderBefore(ts, i) + [Marker(i)] + ts[i - 1] + RenderFrom(ts, i + 1)
  {
    RenderSplits(ts, i);
    assert RenderFrom(ts, i) == [Marker(i)] + ts[i - 1] + RenderFrom(ts, i + 1);
  }

  /** What follows option `i`'s text starts with marker `i + 1`, or is
      empty after option 5. */
  lemma RenderedNext(ts: seq<string>, i: nat)
    requires |ts| == 5 && 1 <= i <= 5
    ensures i < 5 ==> |RenderFrom(ts, i + 1)| > 0 && RenderFrom(ts, i + 1)[0] == Marker(i + 1)
    ensures i == 5 ==> RenderFrom(ts, i + 1) == []
  {
    if i < 5 {
      assert RenderFrom(ts, i + 1) == [Marker(i + 1)] + (ts[i] + RenderFrom(ts, i + 2));
    }
  }

  /** Option `i` of a cell rendered from five marker-free texts is the
      `i`-th text, stripped. */
  lemma RenderedOption(ts: seq<string>, i: nat)
    requires |ts| == 5 && 1 <= i <= 5
    requires forall k :: 0 <= k < 5 ==> NoMarker(ts[k])
    ensures OptionAt(Render(ts), i) == Strip(ts[i - 1])
  {
    RenderedAround(ts, i);
    RenderedNext(ts, i);
    RenderBeforeMarkers(ts, i, i);
    if i < 5 {
      RenderBeforeMarkers(ts, i, i + 1);
    }
    assert NoMarker(ts[i - 1]);
    OptionBetween(RenderBefore(ts, i), ts[i - 1], RenderFrom(ts, i + 1), i);
  }

  /** The split options are the per-marker options, whatever the cell. */
  lemma SplitEach(blob: string, ts: seq<string>)
    requires |ts| == 5
    requires forall i :: 1 <= i <= 5 ==> OptionAt(blob, i) == Strip(ts[i - 1])
    ensures forall k :: 0 <= k < 5 ==> SplitOptions(blob)[k] == Strip(ts[k])
  {
    var opts := SplitOptions(blob);
    forall k | 0 <= k < 5
      ensures opts[k] == Strip(ts[k])
    {
      assert opts[k] == OptionAt(blob, k + 1);
    }
  }

  /** Splitting a cell rendered from five marker-free texts gives back the
      texts, stripped. */
  lemma SplitRendered(ts: seq<string>)
    requires |ts| == 5
    requires forall k :: 0 <= k < 5 ==> NoMarker(ts[k])
    ensures forall k :: 0 <= k < 5 ==> SplitOptions(Render(ts))[k] == Strip(ts[k])
  {
    var blob := Render(ts);
    forall i | 1 <= i <= 5
      ensures OptionAt(blob, i) == Strip(ts[i - 1])
    {
      RenderedOption(ts, i);
    }
    SplitEach(blob, ts);
  }

  /** Round trip: five marker-free texts without surrounding whitespace are
      read back exactly from the cell they are rendered to. */
  lemma RenderRoundTrip(ts: seq<string>)
    requires |ts| == 5
    requires forall k :: 0 <= k < 5 ==> NoMarker(ts[k])
    requires forall k :: 0 <= k < 5 ==> ts[k] == Strip(ts[k])
    ensures SplitOptions(Render(ts)) == ts
  {
    SplitRendered(ts);
  }

  /** When marker `i + 1` does not occur after marker `i`, option `i` runs
      from marker `i` to the end of the cell, whatever other markers it holds. */
  lemma OptionRunsToEnd(pre: string, t: string, i: nat)
    requires 1 <= i <= 5
    requires Marker(i) !in pre
    requires i < 5 ==> Marker(i + 1) !in pre && Marker(i + 1) !in t
    ensures OptionAt(pre + [Marker(i)] + t, i) == Strip(t)
  {
    var m := Marker(i);
    var blob := pre + [m] + t;
    assert blob == pre + ([m] + t);
    FindAfter(pre, [m] + t, m);
    FindFirst([m] + t, m, 0);
    assert OptionEnd(blob, i) == |blob|;
    assert Slice(blob, |pre| + 1, |blob|) == t;
  }
}

=== FILE: pytext.dfy ===
/** The handful of Python string built-ins the question loader relies on:
    `str.strip()`, `str.find(ch)`, `str(int)` and `int(str)`, over strings
    of Unicode scalar values. */
module PyText {
  import opened Wrappers

  /** Python's `str.isspace()` on one character: the characters `str.strip()`
      removes and `int()` ignores around its digits. */
  predicate IsSpace(c: char) {
    || ('\t' <= c <= '\r')
    || ('\U{1C}' <= c <= '\U{1F}')
    || c == ' '
    || c == '\U{85}'
    || c == '\U{A0}'
    || c == '\U{1680}'
    || ('\U{2000}' <= c <= '\U{200A}')
    || c == '\U{2028}'
    || c == '\U{2029}'
    || c == '\U{202F}'
    || c == '\U{205F}'
    || c == '\U{3000}'
  }

  /** True of the strings Python considers blank: `not s.strip()`. */
  predicate IsBlank(s: string) {
    forall k :: 0 <= k < |s| ==> IsSpace(s[k])
  }

  /** Where `str.strip()` starts cutting nothing: the first index from `i`
      on that holds no whitespace, or `|s|`. */
  function SkipSpace(s: string, i: nat): (n: nat)
    requires i <= |s|
    ensures i <= n <= |s|
    ensures forall k :: i <= k < n ==> IsSpace(s[k])
    ensures n < |s| ==> !IsSpace(s[n])
    decreases |s| - i
  {
    if i < |s| && IsSpace(s[i]) then SkipSpace(s, i + 1) else i
  }

  /** Where `str.strip()` stops keeping characters: going down from `j`, the
      end of the last character above `lo` that is not whitespace, or `lo`. */
  function BackSpace(s: string, lo: nat, j: nat): (n: nat)
    requires lo <= j <= |s|
    ensures lo <= n <= j
    ensures forall k :: n <= k < j ==> IsSpace(s[k])
    ensures n > lo ==> !IsSpace(s[n - 1])
    decreases j
  {
    if j > lo && IsSpace(s[j - 1]) then BackSpace(s, lo, j - 1) else j
  }

  /** Python's `s.strip()`: `s` without its leading and trailing whitespace. */
  function Strip(s: string): (r: string)
    ensures |r| <= |s|
    ensures r == [] <==> IsBlank(s)
    ensures r != [] ==> !IsSpace(r[0]) && !IsSpace(r[|r| - 1])
  {
    var i := SkipSpace(s, 0);
    var j := BackSpace(s, i, |s|);
    assert IsBlank(s) ==> i == |s|;
    s[i..j]
  }

  /** What `strip` keeps is one contiguous piece of `s`, with only
      whitespace around it. */
  lemma StripSlice(s: string) returns (i: nat)
    ensures i + |Strip(s)| <= |s|
    ensures Strip(s) == s[i..i + |Strip(s)|]
    ensures IsBlank(s[..i]) && IsBlank(s[i + |Strip(s)|..])
  {
    i := SkipSpace(s, 0);
    var j := BackSpace(s, i, |s|);
    assert Strip(s) == s[i..j];
    assert forall k :: 0 <= k < i ==> s[..i][k] == s[k];
    assert forall k :: 0 <= k < |s| - j ==> s[j..][k] == s[j + k];
  }

  /** True of a string that neither starts nor ends with whitespace. */
  predicate Trimmed(s: string) {
    s != [] ==> !IsSpace(s[0]) && !IsSpace(s[|s| - 1])
  }

  /** A string already without surrounding whitespace is its own strip. */
  lemma StripTrimmed(s: string)
    requires Trimmed(s)
    ensures Strip(s) == s
  {
  }

  /** Stripping twice strips nothing more. */
  lemma StripIdempotent(s: string)
    ensures Strip(Strip(s)) == Strip(s)
  {
    StripTrimmed(Strip(s));
  }

  /** Every character of a stripped string comes from the original. */
  lemma StripChars(s: string, c: char)
    requires c in Strip(s)
    ensures c in s
  {
    var r := Strip(s);
    var i := StripSlice(s);
    var k :| 0 <= k < |r| && r[k] == c;
    assert s[i + k] == c;
  }

  /** Python's `s.find(c)` for a one-character pattern: the index of the
      first occurrence of `c`, or -1 when there is none. */
  function Find(s: string, c: char): (r: int)
    ensures -1 <= r < |s|
    ensures r == -1 <==> c !in s
    ensures r >= 0 ==> s[r] == c
    ensures forall j :: 0 <= j < r ==> s[j] != c
  {
    if |s| == 0 then -1
    else if s[0] == c then 0
    else
      var k := Find(s[1..], c);
      if k == -1 then -1 else k + 1
  }

  /** `find` returns the one index where `c` occurs with no `c` before it. */
  lemma FindFirst(s: string, c: char, i: nat)
    requires i < |s| && s[i] == c
    requires forall j :: 0 <= j < i ==> s[j] != c
    ensures Find(s, c) == i
  {
    var r := Find(s, c);
    assert s[r] == c;
  }

  /** `find` skips a prefix that does not hold the character. */
  lemma {:induction false} FindAfter(a: string, b: string, c: char)
    requires c !in a
    ensures Find(a + b, c) == if c in b then |a| + Find(b, c) else -1
    decreases |a|
  {
    if a == [] {
      assert a + b == b;
    } else {
      assert a[0] != c && c !in a[1..];
      assert (a + b)[0] == a[0];
      assert (a + b)[1..] == a[1..] + b;
      FindAfter(a[1..], b, c);
    }
  }

  /** `find` stops inside a prefix that holds the character. */
  lemma FindWithin(a: string, b: string, c: char)
    requires c in a
    ensures Find(a + b, c) == Find(a, c)
  {
    var k := Find(a, c);
    assert (a + b)[k] == c;
    var r := Find(a + b, c);
    assert r <= k;
    assert (a + b)[r] == a[r];
  }

  predicate IsDigit(c: char) {
    '0' <= c <= '9'
  }

  /** A non-empty run of ASCII decimal digits. */
  predicate IsDigits(s: string) {
    |s| > 0 && forall k :: 0 <= k < |s| ==> IsDigit(s[k])
  }

  function DigitChar(d: nat): (c: char)
    requires d < 10
    ensures IsDigit(c)
  {
    (48 + d) as char
  }

  function DigitValue(c: char): (d: nat)
    requires IsDigit(c)
    ensures d < 10 && DigitChar(d) == c
  {
    c as int - 48
  }

  /** The number a run of decimal digits spells. */
  function DigitsValue(s: string): nat
    requires forall k :: 0 <= k < |s| ==> IsDigit(s[k])
  {
    if |s| == 0 then 0 else DigitsValue(s[..|s| - 1]) * 10 + DigitValue(s[|s| - 1])
  }

  /** Python's `str(n)` for a natural number. */
  function NatToString(n: nat): (r: string)
    ensures IsDigits(r)
    ensures r[0] != '0' || n == 0
    decreases n
  {
    if n < 10 then [DigitChar(n)] else NatToString(n / 10) + [DigitChar(n % 10)]
  }

  /** Python's `str(n)` for an integer: a minus sign before the digits of a negative one. */
  function IntToString(n: int): (r: string)
    ensures |r| > 0
    ensures forall k :: 0 <= k < |r| ==> IsDigit(r[k]) || r[k] == '-'
  {
    if n < 0 then "-" + NatToString(-n) else NatToString(n)
  }

  /** Python's `int(s)` on a string, base 10: surrounding whitespace, an
      optional sign, then ASCII digits; anything else raises, modelled as
      `None`. */
  function ParseInt(s: string): Option<int> {
    ParseSigned(Strip(s))
  }

  /** An optionally signed run of decimal digits, with nothing around it. */
  function ParseSigned(t: string): Option<int> {
    if |t| > 0 && t[0] == '-' && IsDigits(t[1..]) then Some(-(DigitsValue(t[1..]) as int))
    else if |t| > 0 && t[0] == '+' && IsDigits(t[1..]) then Some(DigitsValue(t[1..]))
    else if IsDigits(t) then Some(DigitsValue(t))
    else None
  }

  lemma {:induction false} DigitsOfNat(n: nat)
    ensures DigitsValue(NatToString(n)) == n
    decreases n
  {
    if n >= 10 {
      DigitsOfNat(n / 10);
      var s := NatToString(n);
      assert s[..|s| - 1] == NatToString(n / 10);
    }
  }

  /** The rendering of an integer has no whitespace to strip. */
  lemma IntToStringTrimmed(n: int)
    ensures Strip(IntToString(n)) == IntToString(n)
  {
    var s := IntToString(n);
    assert !IsSpace(s[0]) && !IsSpace(s[|s| - 1]);
    StripTrimmed(s);
  }

  /** `int(str(n)) == n`: the decimal rendering of an integer reads back as it. */
  lemma {:induction false} ParseIntToString(n: int)
    ensures ParseInt(IntToString(n)) == Some(n)
  {
    var s := IntToString(n);
    if n < 0 {
      var d := NatToString(-n);
      assert s == ['-'] + d;
      assert s[1..] == d;
      DigitsOfNat(-n);
    } else {
      assert IsDigit(s[0]) && IsDigits(s);
      DigitsOfNat(n);
    }
    assert ParseSigned(s) == Some(n);
    IntToStringTrimmed(n);
  }

  /** Distinct integers have distinct decimal renderings. */
  lemma IntToStringInjective(a: int, b: int)
    requires IntToString(a) == IntToString(b)
    ensures a == b
  {
    ParseIntToString(a);
    ParseIntToString(b);
  }
}

=== FILE: question.dfy ===
/** One exam question as the loaders build it: the dictionary
    `{number, text, options, correct, answer}` of the Python source. */
module Questions {
  import opened Wrappers
  import opened PyText
  import opened Options

  /** `correct` is the 0-based index of the right option; `answer` is the
      explanation shown after answering. */
  datatype Question = Question(number: int, text: string, options: seq<string>, correct: nat, answer: string)
  {
    /** The correct option exists, so `options[correct]` never raises. */
    predicate WellFormed() {
      correct < |options|
    }
  }

  /** The header names the set-based loaders look for. */
  const SetColumn: string := "세트"
  const NumberColumn: string := "문제번호"
  const TextColumn: string := "문제"
  const OptionsColumn: string := "보기"
  const AnswerColumn: string := "답안"
  const ExplanationColumn: string := "해설"

  /** The answer-cell table shared by the set-based loaders: a circled or a
      plain digit from 1 to 5 names an option. */
  const AnswerKeys: map<string, nat> :=
    map["①" := 0, "②" := 1, "③" := 2, "④" := 3, "⑤" := 4,
        "1" := 0, "2" := 1, "3" := 2, "4" := 3, "5" := 4]

  /** `answer_map.get(answer, 0)`: the exact cell text is looked up, with no
      stripping, and anything else falls back to the first option. */
  function AnswerIndex(key: string): (r: nat)
    ensures r < 5
    ensures r != 0 ==> |key| == 1
  {
    if key in AnswerKeys then AnswerKeys[key] else 0
  }

  /** Option `i` can be named by its marker or by its digit, and both give index `i - 1`. */
  lemma AnswerNamesOption(i: nat)
    requires 1 <= i <= 5
    ensures AnswerIndex([Marker(i)]) == i - 1
    ensures AnswerIndex(IntToString(i)) == i - 1
  {
    assert [Marker(1)] == "①" && [Marker(2)] == "②" && [Marker(3)] == "③";
    assert [Marker(4)] == "④" && [Marker(5)] == "⑤";
    assert IntToString(i) == [DigitChar(i)];
    assert [DigitChar(1)] == "1" && [DigitChar(2)] == "2" && [DigitChar(3)] == "3";
    assert [DigitChar(4)] == "4" && [DigitChar(5)] == "5";
  }

  /** Any other answer cell, " 2" or "B" or "2.0" included, silently marks the
      first option correct. */
  lemma AnswerFallsBackToFirst(key: string)
    requires forall i :: 1 <= i <= 5 ==> key != [Marker(i)] && key != [DigitChar(i)]
    ensures AnswerIndex(key) == 0
  {
    assert [Marker(1)] == "①" && [Marker(2)] == "②" && [Marker(3)] == "③";
    assert [Marker(4)] == "④" && [Marker(5)] == "⑤";
    assert [DigitChar(1)] == "1" && [DigitChar(2)] == "2" && [DigitChar(3)] == "3";
    assert [DigitChar(4)] == "4" && [DigitChar(5)] == "5";
    assert key !in AnswerKeys;
  }

  const ExplanationHead: string := "문제 "
  const ExplanationMiddle: string := "의 정답은 "
  const ExplanationTail: string := "입니다."

  /** `f"문제 {number}의 정답은 {option}입니다."`, the explanation used when the
      sheet has none. */
  function Explanation(number: int, option: string): (r: string)
    ensures |r| == |IntToString(number)| + |option| + 13
  {
    ExplanationHead + IntToString(number) + ExplanationMiddle + option + ExplanationTail
  }

  /** The generated explanation spells out both the question number and the
      option text, so two differing questions never share one. */
  lemma ExplanationInjective(n1: int, o1: string, n2: int, o2: string)
    requires Explanation(n1, o1) == Explanation(n2, o2)
    ensures n1 == n2 && o1 == o2
  {
    var d1, d2 := IntToString(n1), IntToString(n2);
    var s := Explanation(n1, o1);
    var h := |ExplanationHead|;
    var cut1 := ExplanationNumberEnds(n1, o1);
    var cut2 := ExplanationNumberEnds(n2, o2);
    assert d1 == s[h..h + |d1|];
    assert d2 == s[h..h + |d2|];
    IntToStringInjective(n1, n2);
    var m := h + |d1| + |ExplanationMiddle|;
    assert o1 == s[m..m + |o1|];
    assert o2 == s[m..m + |o2|];
  }

  /** The generated explanation can be read back: the digits up to the first
      '의' parse as the question number, and the text between "의 정답은 "
      and "입니다." is the option. */
  lemma ExplanationReadsBack(number: int, option: string)
    ensures var r := Explanation(number, option);
      var cut := Find(r, '의');
      && |ExplanationHead| <= cut
      && cut + |ExplanationMiddle| + |ExplanationTail| <= |r|
      && ParseInt(r[|ExplanationHead|..cut]) == Some(number)
      && r[cut + |ExplanationMiddle|..|r| - |ExplanationTail|] == option
  {
    var r := Explanation(number, option);
    var cut := ExplanationNumberEnds(number, option);
    ParseIntToString(number);
    var m := cut + |ExplanationMiddle|;
    assert r == (ExplanationHead + IntToString(number) + ExplanationMiddle) + option + ExplanationTail;
    assert r[m..|r| - |ExplanationTail|] == option;
  }

  /** The digits of the number end at the first '의' of the explanation. */
  lemma ExplanationNumberEnds(n: int, o: string) returns (cut: int)
    ensures cut == Find(Explanation(n, o), '의')
    ensures cut == |ExplanationHead| + |IntToString(n)|
    ensures Explanation(n, o)[|ExplanationHead|..cut] == IntToString(n)
  {
    var d := IntToString(n);
    var pre := ExplanationHead + d;
    var post := ExplanationMiddle + o + ExplanationTail;
    assert Explanation(n, o) == pre + post;
    assert '의' !in ExplanationHead;
    assert '의' !in pre by {
      assert forall k :: 0 <= k < |d| ==> d[k] != '의';
    }
    assert post[0] == '의';
    FindFirst(post, '의', 0);
    FindAfter(pre, post, '의');
    cut := |pre|;
    assert (pre + post)[|ExplanationHead|..cut] == d;
  }

  /** The question dictionary once its cells are decoded: the explanation
      cell when the sheet has one, the generated sentence naming the correct
      option otherwise. */
  function Assemble(number: int, text: string, options: seq<string>, correct: nat, explanation: Option<string>): (q: Question)
    requires correct < |options|
    ensures q.WellFormed()
    ensures q.number == number && q.text == text && q.options == options && q.correct == correct
    ensures explanation.Some? ==> q.answer == explanation.value
    ensures explanation.None? ==> q.answer == Explanation(number, options[correct])
  {
    Question(number, text, options, correct, explanation.GetOr(Explanation(number, options[correct])))
  }
}

=== FILE: sampler.dfy ===
/** Drawing and shuffling with `random.sample` and `random.shuffle`, given
    as the positions they choose: a draw of `n` from a pool is a list of `n`
    distinct positions into it, and a shuffle is a draw of the whole pool. */
module Sampler {

  /** `n` distinct positions into a pool of `size` items: what
      `random.sample(pool, n)` may choose. */
  predicate IsDraw(idx: seq<nat>, size: nat, n: nat) {
    && |idx| == n
    && (forall k :: 0 <= k < n ==> idx[k] < size)
    && (forall j, k :: 0 <= j < k < n ==> idx[j] != idx[k])
  }

  /** A reordering of all `size` positions: what `random.shuffle` may do. */
  predicate IsShuffle(idx: seq<nat>, size: nat) {
    IsDraw(idx, size, size)
  }

  /** The items at the chosen positions, in the order chosen. */
  function Pick<T>(pool: seq<T>, idx: seq<nat>): (r: seq<T>)
    requires forall k :: 0 <= k < |idx| ==> idx[k] < |pool|
    ensures |r| == |idx|
    ensures forall k :: 0 <= k < |idx| ==> r[k] == pool[idx[k]]
  {
    seq(|idx|, k requires 0 <= k < |idx| => pool[idx[k]])
  }

  function Min(a: nat, b: nat): nat {
    if a <= b then a else b
  }

  lemma PickConcat<T>(pool: seq<T>, a: seq<nat>, b: seq<nat>)
    requires forall k :: 0 <= k < |a| ==> a[k] < |pool|
    requires forall k :: 0 <= k < |b| ==> b[k] < |pool|
    ensures Pick(pool, a + b) == Pick(pool, a) + Pick(pool, b)
  {
    var l, r := Pick(pool, a + b), Pick(pool, a) + Pick(pool, b);
    assert |l| == |r|;
    forall k | 0 <= k < |l| ensures l[k] == r[k] {
      if k < |a| { assert (a + b)[k] == a[k]; } else { assert (a + b)[k] == b[k - |a|]; }
    }
  }

  /** Positions below `m` pick the same items from the pool's first `m`. */
  lemma PickPrefix<T>(pool: seq<T>, m: nat, idx: seq<nat>)
    requires m <= |pool|
    requires forall k :: 0 <= k < |idx| ==> idx[k] < m
    ensures Pick(pool, idx) == Pick(pool[..m], idx)
  {
    var l, r := Pick(pool, idx), Pick(pool[..m], idx);
    assert |l| == |r|;
    forall k | 0 <= k < |l| ensures l[k] == r[k] {
      assert pool[..m][idx[k]] == pool[idx[k]];
    }
  }

  /** Removing the position of the pool's last item from a draw leaves a
      draw from the rest of the pool. */
  lemma DrawWithoutLast(idx: seq<nat>, size: nat, j: nat) returns (rest: seq<nat>)
    requires IsDraw(idx, size + 1, |idx|) && j < |idx| && idx[j] == size
    ensures rest == idx[..j] + idx[j + 1..]
    ensures IsDraw(rest, size, |rest|)
  {
    rest := idx[..j] + idx[j + 1..];
    forall k | 0 <= k < |rest| ensures rest[k] < size {
      if k < j { assert rest[k] == idx[k]; } else { assert rest[k] == idx[k + 1]; }
    }
    forall a, c | 0 <= a < c < |rest| ensures rest[a] != rest[c] {
      var a' := if a < j then a else a + 1;
      var c' := if c < j then c else c + 1;
      assert rest[a] == idx[a'] && rest[c] == idx[c'];
    }
  }

  /** The last item, picked once at position `j`, plus what the other positions pick. */
  lemma PickLastOnce<T>(pool: seq<T>, idx: seq<nat>, j: nat, rest: seq<nat>)
    requires |pool| > 0 && j < |idx| && idx[j] == |pool| - 1
    requires forall k :: 0 <= k < |idx| ==> idx[k] < |pool|
    requires rest == idx[..j] + idx[j + 1..]
    requires forall k :: 0 <= k < |rest| ==> rest[k] < |pool| - 1
    ensures multiset(Pick(pool, idx)) == multiset(Pick(pool[..|pool| - 1], rest)) + multiset{pool[|pool| - 1]}
  {
    var m := |pool| - 1;
    assert idx == idx[..j] + [m] + idx[j + 1..];
    PickConcat(pool, idx[..j], [m]);
    PickConcat(pool, idx[..j] + [m], idx[j + 1..]);
    PickConcat(pool, idx[..j], idx[j + 1..]);
    PickPrefix(pool, m, rest);
  }

  /** No position lies in an empty pool. */
  lemma NothingDrawnFromNothing(idx: seq<nat>)
    ensures IsDraw(idx, 0, |idx|) ==> idx == []
  {
    if idx != [] {
      assert idx[0] >= 0;
    }
  }

  /** A draw takes every item of the pool at most as often as the pool holds
      it: `random.sample` picks from distinct positions. */
  lemma {:induction false} DrawIsSubMultiset<T>(pool: seq<T>, idx: seq<nat>)
    requires IsDraw(idx, |pool|, |idx|)
    ensures multiset(Pick(pool, idx)) <= multiset(pool)
    decreases |pool|
  {
    if pool == [] {
      NothingDrawnFromNothing(idx);
      return;
    }
    var m := |pool| - 1;
    var init := pool[..m];
    assert pool == init + [pool[m]];
    if j :| 0 <= j < |idx| && idx[j] == m {
      var rest := DrawWithoutLast(idx, m, j);
      DrawIsSubMultiset(init, rest);
      PickLastOnce(pool, idx, j, rest);
    } else {
      assert forall k :: 0 <= k < |idx| ==> idx[k] < m;
      PickPrefix(pool, m, idx);
      DrawIsSubMultiset(init, idx);
    }
  }

  /** A sub-multiset as large as the whole is the whole. */
  lemma SubMultisetOfSameSize<T>(a: multiset<T>, b: multiset<T>)
    requires a <= b && |a| == |b|
    ensures a == b
  {
    var c := b - a;
    assert b == a + c;
    assert |c| == 0;
  }

  /** A shuffle keeps every item exactly as often as the pool holds it. */
  lemma ShuffleIsPermutation<T>(pool: seq<T>, idx: seq<nat>)
    requires IsShuffle(idx, |pool|)
    ensures multiset(Pick(pool, idx)) == multiset(pool)
  {
    DrawIsSubMultiset(pool, idx);
    SubMultisetOfSameSize(multiset(Pick(pool, idx)), multiset(pool));
  }
}

=== FILE: upload_loader.dfy ===
/** The loader of the upload server (`extract_questions_from_excel` in
    excel_upload_server.py): a flat list of four-option questions, where each
    field is looked up through a chain of alternative column names and an
    answer is a letter from A to D. */
module UploadLoader {
  import opened Wrappers
  import opened PyText
  import opened Questions
  import FrameLoader

  /** The names a field may be stored under, most preferred first. */
  const NumberKeys: seq<string> := ["번호", "문제번호", "No"]
  const TextKeys: seq<string> := ["문제", "내용", "Question"]
  const LetterKeys: seq<string> := ["정답", "Answer", "답"]
  const NoteKeys: seq<string> := ["해설", "Explanation", "설명"]

  /** `chr(64 + i)`: the letter of option `i`, A to D. */
  function Letter(i: nat): char
    requires 1 <= i <= 4
  {
    (64 + i) as char
  }

  /** The three names option `i` may be stored under: `보기{i}`, `보기{letter}`, `Option{i}`. */
  function OptionKeys(i: nat): seq<string>
    requires 1 <= i <= 4
  {
    ["보기" + [DigitChar(i)], "보기" + [Letter(i)], "Option" + [DigitChar(i)]]
  }

  /** `f"보기 {chr(64 + i)}"`, the text standing in for a missing option `i`. */
  function LetterPlaceholder(i: nat): string
    requires 1 <= i <= 4
  {
    "보기 " + [Letter(i)]
  }

  /** The list the normalisation step installs. */
  const LetterPlaceholders: seq<string> := ["보기 A", "보기 B", "보기 C", "보기 D"]

  /** `row.get(k1, row.get(k2, row.get(k3, default)))`, stringified: the
      nested calls settle on the first of the keys the row has, as the
      `k1 in df.columns or k2 in df.columns ...` guards do on the columns. */
  function Lookup(row: map<string, string>, keys: seq<string>, default: string): string {
    var i := FirstIn(keys, row.Keys);
    if i < 0 then default else row[keys[i]]
  }

  /** `int(row.get(k1, row.get(k2, row.get(k3, default))))`: `None` when the
      chosen cell does not read as an integer. */
  function LookupInt(row: map<string, string>, keys: seq<string>, default: int): Option<int> {
    var i := FirstIn(keys, row.Keys);
    if i < 0 then Some(default) else ParseInt(row[keys[i]])
  }

  /** The column labels as a set, and the label of the first column (`row.iloc[0]`). */
  datatype Layout = Layout(names: set<string>, first: Option<string>)

  function LayoutOf(columns: seq<string>): (l: Layout)
    ensures forall c :: c in l.names <==> c in columns
    ensures l.first.Some? <==> |columns| > 0
  {
    Layout(set c | c in columns, if |columns| > 0 then Some(columns[0]) else None)
  }

  /** Whether the sheet has any column of the chain. */
  predicate Has(l: Layout, keys: seq<string>) {
    FirstIn(keys, l.names) >= 0
  }

  /** In a genuine DataFrame the row's keys are the sheet's columns, so the
      nested `row.get` calls pick the same name as the `in df.columns`
      guards, and the innermost default fires only when the sheet has none. */
  lemma FramedLookup(sheet: FrameLoader.Sheet, k: nat, keys: seq<string>, default: string)
    requires FrameLoader.Framed(sheet) && k < |sheet.rows|
    ensures var l, row := LayoutOf(sheet.columns), sheet.rows[k];
      && FirstIn(keys, row.Keys) == FirstIn(keys, l.names)
      && (Has(l, keys) ==> Lookup(row, keys, default) == row[keys[FirstIn(keys, l.names)]])
      && (!Has(l, keys) ==> Lookup(row, keys, default) == default)
  {
  }

  /** The number: through the chain when the sheet has one of its columns,
      the row position plus one otherwise. */
  function RowNumber(l: Layout, row: map<string, string>, index: nat): Option<int> {
    if Has(l, NumberKeys) then LookupInt(row, NumberKeys, index + 1) else Some(index + 1)
  }

  /** The text: through the chain, or else the row's first cell. */
  function RowText(l: Layout, row: map<string, string>): string {
    if Has(l, TextKeys) then Lookup(row, TextKeys, "")
    else if l.first.Some? then FrameLoader.Get(row, l.first.value, "")
    else ""
  }

  /** Option `i`: the cell of the first of its names the sheet has, verbatim;
      the placeholder when it has none. The source reads `row[option_key]`,
      which raises on a row lacking the column; in a genuine DataFrame
      (`FrameLoader.Framed`) every row has it, and the two agree. */
  function RowOption(l: Layout, row: map<string, string>, i: nat): string
    requires 1 <= i <= 4
  {
    var keys := OptionKeys(i);
    var j := FirstIn(keys, l.names);
    if j < 0 then LetterPlaceholder(i) else FrameLoader.Get(row, keys[j], "")
  }

  /** The option names take precedence in their order: `보기{i}` over
      `보기{letter}` over `Option{i}`, and only a sheet with none of them
      gets the placeholder. */
  lemma OptionPrecedence(l: Layout, row: map<string, string>, i: nat)
    requires 1 <= i <= 4
    ensures var ks := OptionKeys(i);
      && (ks[0] in l.names ==> RowOption(l, row, i) == FrameLoader.Get(row, ks[0], ""))
      && (ks[0] !in l.names && ks[1] in l.names ==> RowOption(l, row, i) == FrameLoader.Get(row, ks[1], ""))
      && (ks[0] !in l.names && ks[1] !in l.names && ks[2] in l.names ==> RowOption(l, row, i) == FrameLoader.Get(row, ks[2], ""))
      && (ks[0] !in l.names && ks[1] !in l.names && ks[2] !in l.names ==> RowOption(l, row, i) == LetterPlaceholder(i))
  {
  }

  /** The `if not options or all(opt == f"보기 {chr(65+i)}" ...)` step: a list
      of four placeholders is replaced by the list of four placeholders. */
  function Normalise(opts: seq<string>): seq<string>
    requires |opts| == 4
  {
    if forall k :: 0 <= k < 4 ==> opts[k] == "보기 " + [(65 + k) as char] then LetterPlaceholders else opts
  }

  /** The normalisation never changes the list. */
  lemma NormaliseIsIdentity(opts: seq<string>)
    requires |opts| == 4
    ensures Normalise(opts) == opts
  {
    if forall k :: 0 <= k < 4 ==> opts[k] == "보기 " + [(65 + k) as char] {
      assert opts[0] == "보기 A" && opts[1] == "보기 B" && opts[2] == "보기 C" && opts[3] == "보기 D";
    }
  }

  function RowOptions(l: Layout, row: map<string, string>): (opts: seq<string>)
    ensures |opts| == 4
    ensures forall k :: 0 <= k < 4 ==> opts[k] == RowOption(l, row, k + 1)
  {
    var opts := [RowOption(l, row, 1), RowOption(l, row, 2), RowOption(l, row, 3), RowOption(l, row, 4)];
    NormaliseIsIdentity(opts);
    Normalise(opts)
  }

  /** `str.upper` on the ASCII letters. */
  function UpperChar(c: char): char {
    if 'a' <= c <= 'z' then (c as int - 32) as char else c
  }

  function Upper(s: string): (r: string)
    ensures |r| == |s|
    ensures forall k :: 0 <= k < |s| ==> r[k] == UpperChar(s[k])
  {
    seq(|s|, k requires 0 <= k < |s| => UpperChar(s[k]))
  }

  /** `answer_map`; its lower-case keys are unreachable after `upper()`. */
  const LetterMap: map<string, nat> :=
    map["A" := 0, "B" := 1, "C" := 2, "D" := 3, "a" := 0, "b" := 1, "c" := 2, "d" := 3]

  /** Upper-casing lands on one of the capital keys exactly when the answer
      is one of the eight letter keys, in either case. */
  lemma UpperFindsLetterKeys(answer: string)
    ensures Upper(answer) in LetterMap <==> answer in LetterMap
    ensures answer in LetterMap ==> LetterMap[Upper(answer)] == LetterMap[answer]
  {
    var key := Upper(answer);
    if |answer| == 1 {
      assert answer == [answer[0]] && key == [UpperChar(answer[0])];
    } else {
      assert key !in LetterMap && answer !in LetterMap;
    }
  }

  /** `answer_map.get(answer.upper(), 0)`. */
  function LetterIndex(answer: string): (r: nat)
    ensures r < 4
  {
    var key := Upper(answer);
    if key in LetterMap then LetterMap[key] else 0
  }

  /** The letter of option `i`, in either case, names option `i`; any other
      answer names the first option. */
  lemma LetterNamesOption(answer: string, i: nat)
    requires 1 <= i <= 4
    ensures answer == [Letter(i)] || answer == [(96 + i) as char] ==> LetterIndex(answer) == i - 1
    ensures LetterIndex(answer) == i - 1 && i > 1 ==> answer == [Letter(i)] || answer == [(96 + i) as char]
  {
    var key := Upper(answer);
    if answer == [Letter(i)] || answer == [(96 + i) as char] {
      assert key == [Letter(i)];
      assert [Letter(1)] == "A" && [Letter(2)] == "B" && [Letter(3)] == "C" && [Letter(4)] == "D";
    }
    if LetterIndex(answer) == i - 1 && i > 1 {
      assert key in LetterMap;
      assert key == "B" || key == "C" || key == "D";
      assert |answer| == 1;
    }
  }

  /** The correct index: from the first answer column the sheet has (default
      "A"), 0 when it has none. */
  function RowCorrect(l: Layout, row: map<string, string>): (c: nat)
    ensures c < 4
  {
    if Has(l, LetterKeys) then LetterIndex(Lookup(row, LetterKeys, "A")) else 0
  }

  function RowNote(l: Layout, row: map<string, string>): Option<string> {
    if Has(l, NoteKeys) then Some(Lookup(row, NoteKeys, "")) else None
  }

  /** One turn of the row loop before the blank check; `None` when `int()` raises. */
  function RowQuestion(l: Layout, row: map<string, string>, index: nat): (r: Option<Question>)
    ensures r.Some? ==> |r.value.options| == 4 && r.value.correct < 4
    ensures r.None? <==> RowNumber(l, row, index).None?
    ensures r.Some? ==> r.value.text == RowText(l, row)
  {
    match RowNumber(l, row, index)
    case None => None
    case Some(number) =>
      Some(Assemble(number, RowText(l, row), RowOptions(l, row), RowCorrect(l, row), RowNote(l, row)))
  }

  /** `question['text'].strip()` is truthy: the text is not blank. */
  predicate Filled(q: Question) {
    Strip(q.text) != []
  }

  /** What one question contributes: itself when its text is not blank. */
  function KeptPart(q: Question): (r: seq<Question>)
    ensures r == [] || r == [q]
  {
    if Filled(q) then [q] else []
  }

  /** `if question['text'].strip(): questions.append(question)` over a list. */
  function DropBlank(qs: seq<Question>): (r: seq<Question>)
    ensures |r| <= |qs|
  {
    if qs == [] then []
    else
      var n := |qs| - 1;
      DropBlank(qs[..n]) + KeptPart(qs[n])
  }

  /** The kept questions are not blank. */
  lemma {:induction false} DropBlankNonBlank(qs: seq<Question>)
    ensures forall k :: 0 <= k < |DropBlank(qs)| ==> Filled(DropBlank(qs)[k])
    decreases |qs|
  {
    if qs != [] {
      var n := |qs| - 1;
      var prev, last := DropBlank(qs[..n]), KeptPart(qs[n]);
      DropBlankNonBlank(qs[..n]);
      assert forall k :: 0 <= k < |last| ==> Filled(last[k]);
      AllOfConcat(prev, last, Filled);
    }
  }

  /** The kept questions keep any shape all questions had. */
  lemma {:induction false} DropBlankShaped(qs: seq<Question>)
    requires forall k :: 0 <= k < |qs| ==> Shaped(qs[k])
    ensures forall k :: 0 <= k < |DropBlank(qs)| ==> Shaped(DropBlank(qs)[k])
    decreases |qs|
  {
    if qs != [] {
      var n := |qs| - 1;
      var prev, last := DropBlank(qs[..n]), KeptPart(qs[n]);
      DropBlankShaped(qs[..n]);
      AllOfConcat(prev, last, Shaped);
    }
  }

  /** The kept questions all come from the list, none more often than it
      holds it. */
  lemma {:induction false} DropBlankFrom(qs: seq<Question>)
    ensures multiset(DropBlank(qs)) <= multiset(qs)
    decreases |qs|
  {
    if qs != [] {
      var n := |qs| - 1;
      var init := qs[..n];
      assert qs == init + [qs[n]];
      DropBlankFrom(init);
    }
  }

  /** One more question is judged on its own. */
  lemma DropBlankSnoc(qs: seq<Question>, q: Question)
    ensures DropBlank(qs + [q]) == DropBlank(qs) + KeptPart(q)
  {
    var s := qs + [q];
    assert s[..|s| - 1] == qs;
  }

  /** Dropping blanks works piece by piece: kept questions keep their order. */
  lemma {:induction false} DropBlankConcat(a: seq<Question>, b: seq<Question>)
    ensures DropBlank(a + b) == DropBlank(a) + DropBlank(b)
    decreases |b|
  {
    if b == [] {
      assert a + b == a;
    } else {
      var n := |b| - 1;
      var init, q := b[..n], b[n];
      SplitLast(b);
      AppendAssoc(a, init, [q]);
      DropBlankConcat(a, init);
      DropBlankSnoc(a + init, q);
      DropBlankSnoc(init, q);
      AppendAssoc(DropBlank(a), DropBlank(init), KeptPart(q));
    }
  }

  /** A single question is kept exactly when its text is not blank. */
  lemma DropBlankOne(q: Question)
    ensures DropBlank([q]) == KeptPart(q)
    ensures KeptPart(q) == if Filled(q) then [q] else []
  {
    assert [q][..0] == [];
  }

  /** Every non-blank question of the list survives. */
  lemma {:induction false} DropBlankKeeps(qs: seq<Question>, k: nat)
    requires k < |qs| && Filled(qs[k])
    ensures qs[k] in DropBlank(qs)
  {
    var pre, q, post := qs[..k], qs[k], qs[k + 1..];
    assert qs == (pre + [q]) + post;
    DropBlankConcat(pre + [q], post);
    DropBlankConcat(pre, [q]);
    DropBlankOne(q);
    var kept := DropBlank(pre) + [q];
    assert kept[|kept| - 1] == q;
    assert DropBlank(qs) == kept + DropBlank(post);
    assert DropBlank(qs)[|kept| - 1] == q;
  }

  /** What every decoded row gives: four options and a correct index among them. */
  predicate Shaped(q: Question) {
    |q.options| == 4 && q.correct < 4
  }

  /** Every question decoded from the rows is shaped. */
  lemma DecodedShaped(l: Layout, rows: seq<map<string, string>>)
    requires AllOrNone((row, k) => RowQuestion(l, row, k), rows).Some?
    ensures var qs := AllOrNone((row, k) => RowQuestion(l, row, k), rows).value;
      forall k :: 0 <= k < |qs| ==> Shaped(qs[k])
  {
    var qs := AllOrNone((row, k) => RowQuestion(l, row, k), rows).value;
    forall k | 0 <= k < |qs| ensures Shaped(qs[k]) {
      assert qs[k] == RowQuestion(l, rows[k], k).value;
    }
  }

  /** `extract_questions_from_excel`: the non-blank questions in sheet order,
      or `None` when some row raised. */
  function Extract(sheet: FrameLoader.Sheet): (r: Option<seq<Question>>)
    ensures r.None? <==> exists k :: 0 <= k < |sheet.rows| && RowQuestion(LayoutOf(sheet.columns), sheet.rows[k], k).None?
    ensures r.Some? ==> forall k :: 0 <= k < |r.value| ==> Shaped(r.value[k])
    ensures r.Some? ==> forall k :: 0 <= k < |r.value| ==> Filled(r.value[k])
  {
    var l := LayoutOf(sheet.columns);
    match AllOrNone((row, k) => RowQuestion(l, row, k), sheet.rows)
    case None => None
    case Some(qs) =>
      DecodedShaped(l, sheet.rows);
      DropBlankNonBlank(qs);
      DropBlankShaped(qs);
      Some(DropBlank(qs))
  }

  /** What `/upload` answers once the file is saved. */
  datatype Upload = Unreadable | NoQuestions | Uploaded(questions: seq<Question>, total: nat)

  /** An unreadable sheet and a sheet without questions are refused; otherwise
      the answer carries the questions and their count. */
  function UploadOf(sheet: FrameLoader.Sheet): (u: Upload)
    ensures u.Unreadable? <==> Extract(sheet).None?
    ensures u.NoQuestions? <==> Extract(sheet) == Some([])
    ensures u.Uploaded? ==> Extract(sheet) == Some(u.questions) && u.total == |u.questions| > 0
  {
    match Extract(sheet)
    case None => Unreadable
    case Some(qs) => if qs == [] then NoQuestions else Uploaded(qs, |qs|)
  }

  /** The columns a question list is stored under: the first name of each chain. */
  const StoreColumns: seq<string> := ["번호", "문제", "보기1", "보기2", "보기3", "보기4", "정답", "해설"]

  /** A question the upload format holds and gives back: four options, a
      letter answer, a non-blank text. */
  predicate Storable(q: Question) {
    |q.options| == 4 && q.correct < 4 && Filled(q)
  }

  /** `row` holds the cells of `q` under the first name of each chain. */
  predicate Holds(row: map<string, string>, q: Question)
    requires Shaped(q)
  {
    && NumberKeys[0] in row && row[NumberKeys[0]] == IntToString(q.number)
    && TextKeys[0] in row && row[TextKeys[0]] == q.text
    && (forall i :: 1 <= i <= 4 ==> OptionKeys(i)[0] in row && row[OptionKeys(i)[0]] == q.options[i - 1])
    && LetterKeys[0] in row && row[LetterKeys[0]] == [Letter(q.correct + 1)]
    && NoteKeys[0] in row && row[NoteKeys[0]] == q.answer
  }

  function StoredRow(q: Question): (row: map<string, string>)
    requires Shaped(q)
  {
    map["번호" := IntToString(q.number), "문제" := q.text,
        "보기1" := q.options[0], "보기2" := q.options[1], "보기3" := q.options[2], "보기4" := q.options[3],
        "정답" := [Letter(q.correct + 1)], "해설" := q.answer]
  }

  lemma StoredRowHolds(q: Question)
    requires Shaped(q)
    ensures Holds(StoredRow(q), q)
  {
    var row := StoredRow(q);
    forall i | 1 <= i <= 4
      ensures OptionKeys(i)[0] in row && row[OptionKeys(i)[0]] == q.options[i - 1]
    {
      if i == 1 {
        assert OptionKeys(i)[0] == "보기1";
      } else if i == 2 {
        assert OptionKeys(i)[0] == "보기2";
      } else if i == 3 {
        assert OptionKeys(i)[0] == "보기3";
      } else {
        assert OptionKeys(i)[0] == "보기4";
      }
    }
  }

  /** The layout of a sheet whose columns include the first name of every chain. */
  predicate FullLayout(l: Layout) {
    && NumberKeys[0] in l.names && TextKeys[0] in l.names
    && (forall i :: 1 <= i <= 4 ==> OptionKeys(i)[0] in l.names)
    && LetterKeys[0] in l.names && NoteKeys[0] in l.names
  }

  lemma StoreColumnsFull()
    ensures FullLayout(LayoutOf(StoreColumns))
  {
    assert OptionKeys(1)[0] == "보기1" && OptionKeys(2)[0] == "보기2";
    assert OptionKeys(3)[0] == "보기3" && OptionKeys(4)[0] == "보기4";
  }

  lemma HeldOptions(l: Layout, row: map<string, string>, q: Question)
    requires FullLayout(l) && Storable(q) && Holds(row, q)
    ensures RowOptions(l, row) == q.options
  {
    forall k | 0 <= k < 4 ensures RowOptions(l, row)[k] == q.options[k] {
      assert FirstIn(OptionKeys(k + 1), l.names) == 0;
    }
  }

  lemma HeldCorrect(l: Layout, row: map<string, string>, q: Question)
    requires FullLayout(l) && Storable(q) && Holds(row, q)
    ensures RowCorrect(l, row) == q.correct
  {
    assert FirstIn(LetterKeys, l.names) == 0;
    assert FirstIn(LetterKeys, row.Keys) == 0;
    LetterNamesOption([Letter(q.correct + 1)], q.correct + 1);
  }

  lemma HeldFields(l: Layout, row: map<string, string>, q: Question, index: nat)
    requires FullLayout(l) && Storable(q) && Holds(row, q)
    ensures RowNumber(l, row, index) == Some(q.number)
    ensures RowText(l, row) == q.text
    ensures RowNote(l, row) == Some(q.answer)
  {
    assert FirstIn(NumberKeys, l.names) == 0 && FirstIn(NumberKeys, row.Keys) == 0;
    assert FirstIn(TextKeys, l.names) == 0 && FirstIn(TextKeys, row.Keys) == 0;
    assert FirstIn(NoteKeys, l.names) == 0 && FirstIn(NoteKeys, row.Keys) == 0;
    ParseIntToString(q.number);
  }

  /** A row holding a question reads back as that question, in any position. */
  lemma HeldRowReadsBack(l: Layout, row: map<string, string>, q: Question, index: nat)
    requires FullLayout(l) && Storable(q) && Holds(row, q)
    ensures RowQuestion(l, row, index) == Some(q)
  {
    HeldFields(l, row, q, index);
    HeldOptions(l, row, q);
    HeldCorrect(l, row, q);
  }

  /** The sheet that stores `qs`, one row each. */
  function StoreSheet(qs: seq<Question>): (sheet: FrameLoader.Sheet)
    requires forall k :: 0 <= k < |qs| ==> Storable(qs[k])
    ensures |sheet.rows| == |qs|
  {
    FrameLoader.Sheet(StoreColumns, seq(|qs|, k requires 0 <= k < |qs| && Storable(qs[k]) => StoredRow(qs[k])))
  }

  /** A list without a blank question passes through unchanged. */
  lemma {:induction false} DropBlankKeepsAll(qs: seq<Question>)
    requires forall k :: 0 <= k < |qs| ==> Filled(qs[k])
    ensures DropBlank(qs) == qs
  {
    if qs != [] {
      var n := |qs| - 1;
      var init, q := qs[..n], qs[n];
      SplitLast(qs);
      assert forall k :: 0 <= k < |init| ==> Filled(init[k]) by {
        forall k | 0 <= k < |init| ensures Filled(init[k]) { assert init[k] == qs[k]; }
      }
      DropBlankKeepsAll(init);
      DropBlankSnoc(init, q);
      DropBlankOne(q);
    }
  }

  /** Uploading a stored list gives the list back. */
  lemma ExtractStored(qs: seq<Question>)
    requires forall k :: 0 <= k < |qs| ==> Storable(qs[k])
    ensures Extract(StoreSheet(qs)) == Some(qs)
  {
    var sheet := StoreSheet(qs);
    var l := LayoutOf(StoreColumns);
    StoreColumnsFull();
    var parsed := AllOrNone((row, k) => RowQuestion(l, row, k), sheet.rows);
    forall k | 0 <= k < |qs| ensures RowQuestion(l, sheet.rows[k], k) == Some(qs[k]) {
      StoredRowHolds(qs[k]);
      HeldRowReadsBack(l, sheet.rows[k], qs[k], k);
    }
    assert parsed.Some?;
    assert parsed.value == qs;
    DropBlankKeepsAll(qs);
  }
}

=== FILE: views.dfy ===
/** The JSON routes over the loaded dictionary (`/api/questions`,
    `/api/random-questions`, `/api/exam-questions` in cppg_cbt_server.py,
    api/index.py and api/app.py): each answers the "not loaded" error
    unless a non-empty dictionary is loaded. */
module Views {
  import opened Wrappers
  import opened QuestionBank
  import opened Sampler
  import opened Exam

  /** `not QUESTIONS_BY_SET` is false: a dictionary is loaded and it has a set. */
  predicate Ready(state: Option<Bank>) {
    state.Some? && state.value.buckets != map[]
  }

  /** A route's answer: the 400 error, or the question list. */
  datatype Reply<T> = NotLoaded | Listing(items: seq<T>)

  /** Each item of the flat list is a question of the set it is tagged with,
      and that set is one the list walks. */
  lemma {:induction false} FlattenedFromTheirSet(order: seq<int>, b: Bank, k: nat)
    requires k < |FlattenFrom(order, b)|
    ensures FlattenFrom(order, b)[k].setNo in order
    ensures FlattenFrom(order, b)[k].question in b.Bucket(FlattenFrom(order, b)[k].setNo)
    decreases |order|
  {
    var head := Tag(b.Bucket(order[0]), order[0]);
    if k < |head| {
      assert FlattenFrom(order, b)[k] == head[k];
    } else {
      FlattenedFromTheirSet(order[1..], b, k - |head|);
      assert FlattenFrom(order, b)[k] == FlattenFrom(order[1..], b)[k - |head|];
    }
  }

  /** Set `order[i]`'s questions sit in the flat list after those of the sets
      before it, in their own order. */
  lemma {:induction false} FlattenedInSetOrder(order: seq<int>, b: Bank, i: nat, k: nat)
    requires i < |order| && k < |b.Bucket(order[i])|
    ensures Total(order[..i], b) + k < |FlattenFrom(order, b)|
    ensures FlattenFrom(order, b)[Total(order[..i], b) + k] == Served(b.Bucket(order[i])[k], order[i])
    decreases |order|
  {
    TotalIsFlatLength(order, b);
    TotalIsFlatLength(order[..i], b);
    if i > 0 {
      FlattenedInSetOrder(order[1..], b, i - 1, k);
      assert order[1..][..i - 1] == order[..i][1..];
      TotalIsFlatLength(order[1..], b);
    }
  }

  /** `/api/questions`: every question, tagged with its set, set after set;
      as many as the counts' total. */
  function AllQuestions(state: Option<Bank>): (r: Reply<Served>)
    ensures r.NotLoaded? <==> !Ready(state)
    ensures r.Listing? ==> |r.items| == Total(state.value.order, state.value)
    ensures r.Listing? ==> forall k :: 0 <= k < |r.items| ==> r.items[k].question in state.value.Bucket(r.items[k].setNo)
  {
    if !Ready(state) then NotLoaded
    else
      var b := state.value;
      TotalIsFlatLength(b.order, b);
      assert forall k :: 0 <= k < |Flatten(b)| ==> Flatten(b)[k].question in b.Bucket(Flatten(b)[k].setNo) by {
        forall k | 0 <= k < |Flatten(b)| ensures Flatten(b)[k].question in b.Bucket(Flatten(b)[k].setNo) {
          FlattenedFromTheirSet(b.order, b, k);
        }
      }
      Listing(Flatten(b))
  }

  /** `/api/random-questions`: the flat list shuffled; `perm` is the
      reordering `random.shuffle` chose. */
  function RandomQuestions(state: Option<Bank>, perm: seq<nat>): (r: Reply<Served>)
    requires Ready(state) ==> IsShuffle(perm, |Flatten(state.value)|)
    ensures r.NotLoaded? <==> !Ready(state)
    ensures r.Listing? ==> multiset(r.items) == multiset(Flatten(state.value))
  {
    if !Ready(state) then NotLoaded
    else
      ShuffleIsPermutation(Flatten(state.value), perm);
      Listing(Pick(Flatten(state.value), perm))
  }

  /** The shuffled list and the flat list hold the same questions as often,
      so it is as long as the counts' total. */
  lemma RandomIsReordering(state: Option<Bank>, perm: seq<nat>)
    requires Ready(state) && IsShuffle(perm, |Flatten(state.value)|)
    ensures |RandomQuestions(state, perm).items| == Total(state.value.order, state.value)
    ensures forall x :: x in RandomQuestions(state, perm).items <==> x in AllQuestions(state).items
  {
    TotalIsFlatLength(state.value.order, state.value);
    var r := RandomQuestions(state, perm).items;
    assert |multiset(r)| == |multiset(Flatten(state.value))|;
    forall x ensures x in r <==> x in Flatten(state.value) {
      assert x in r <==> x in multiset(r);
    }
  }

  /** `/api/exam-questions` of cppg_cbt_server.py and api/index.py: a paper
      over the CPPG quota; a loaded dictionary never gets the error. */
  function ExamReply(state: Option<Bank>, draws: seq<seq<nat>>): (r: Reply<ExamItem>)
    requires Ready(state) ==> DrawsFit(state.value, CppgQuota, draws)
    ensures r.NotLoaded? <==> !Ready(state)
    ensures r.Listing? ==> |r.items| == QuotaTotal(state.value, CppgQuota)
    ensures r.Listing? ==> forall k :: 0 <= k < |r.items| ==> r.items[k].examNumber == k + 1
  {
    if !Ready(state) then NotLoaded
    else
      ExamShape(state.value, draws);
      Listing(ExamQuestions(state.value, draws))
  }

  /** `/api/exam-questions` of api/app.py: up to 10 questions of every set,
      numbered from 1 and tagged with the set they come from. */
  function InlineExamReply(state: Option<Bank>, draws: seq<seq<nat>>): (r: Reply<ExamItem>)
    requires Ready(state) ==> InlineDrawsFit(state.value, draws)
    ensures r.NotLoaded? <==> !Ready(state)
    ensures r.Listing? ==> |r.items| == InlineTotal(state.value, state.value.order)
    ensures r.Listing? ==> forall k :: 0 <= k < |r.items| ==>
      r.items[k].examNumber == k + 1 && r.items[k].question in state.value.Bucket(r.items[k].setNo)
  {
    if !Ready(state) then NotLoaded
    else
      var b := state.value;
      var items := InlineExam(b, draws);
      InlineShape(b, draws, 0);
      assert forall k :: 0 <= k < |items| ==> items[k].examNumber == k + 1 && items[k].question in b.Bucket(items[k].setNo) by {
        forall k | 0 <= k < |items| ensures items[k].examNumber == k + 1 && items[k].question in b.Bucket(items[k].setNo) {
          InlineShape(b, draws, k);
        }
      }
      Listing(items)
  }
}

=== FILE: workbook_loader.dfy ===
/** The openpyxl loader of the serverless variant (`extract_questions_from_excel`
    in api/app.py): the same question dictionary as the pandas loader, read
    from raw cell values, where Python truthiness decides whether a cell
    counts. */
module WorkbookLoader {
  import opened Wrappers
  import opened PyText
  import opened Options
  import opened Questions
  import opened QuestionBank

  /** A cell value as `iter_rows(values_only=True)` yields it: `None`, an
      integer, or text. Float, boolean and date cells are not modelled:
      openpyxl gives them as `float`, `bool` and `datetime` values, on which
      `int()` truncates, gives 0 or 1, or raises. */
  datatype Cell = Blank | Num(n: int) | Text(s: string)
  {
    /** Python truthiness: `None`, `0` and `''` are false. */
    predicate Truthy() {
      match this
      case Blank => false
      case Num(n) => n != 0
      case Text(s) => s != []
    }

    /** `str(cell)`. */
    function Str(): string {
      match this
      case Blank => "None"
      case Num(n) => IntToString(n)
      case Text(s) => s
    }

    /** `int(cell)`: text must read as an integer, and `int(None)` raises. */
    function Int(): Option<int> {
      match this
      case Blank => None
      case Num(n) => Some(n)
      case Text(s) => ParseInt(s)
    }
  }

  /** The active worksheet: its rows, the header row first. */
  datatype Workbook = Workbook(rows: seq<seq<Cell>>)

  /** `str(cell) if cell else ''`. */
  function HeaderText(c: Cell): string {
    if c.Truthy() then c.Str() else ""
  }

  /** `headers`: the first row, a falsy cell read as ''; empty for an empty sheet. */
  function Headers(wb: Workbook): (hs: seq<string>)
    ensures |hs| == if wb.rows == [] then 0 else |wb.rows[0]|
  {
    if wb.rows == [] then [] else seq(|wb.rows[0]|, k requires 0 <= k < |wb.rows[0]| => HeaderText(wb.rows[0][k]))
  }

  /** The data rows: `iter_rows(min_row=2)`. */
  function DataRows(wb: Workbook): seq<seq<Cell>> {
    if wb.rows == [] then [] else wb.rows[1..]
  }

  /** `headers.index(name) if name in headers else -1`. */
  function IndexOf(hs: seq<string>, name: string): (r: int)
    ensures -1 <= r < |hs|
    ensures r == -1 <==> name !in hs
    ensures r >= 0 ==> hs[r] == name
    ensures forall j :: 0 <= j < r ==> hs[j] != name
  {
    if hs == [] then -1
    else if hs[0] == name then 0
    else
      var k := IndexOf(hs[1..], name);
      if k == -1 then -1 else k + 1
  }

  /** Where each known column sits; -1 when the header lacks it. The text
      column falls back to position 0. */
  datatype Columns = Columns(set_: int, number: int, text: int, options: int, answer: int, explanation: int)

  function ColumnsOf(hs: seq<string>): Columns {
    Columns(
      IndexOf(hs, SetColumn),
      IndexOf(hs, NumberColumn),
      if TextColumn in hs then IndexOf(hs, TextColumn) else 0,
      IndexOf(hs, OptionsColumn),
      IndexOf(hs, AnswerColumn),
      IndexOf(hs, ExplanationColumn))
  }

  /** The outcome of the guard `idx >= 0 and row[idx]`: the indexing raises
      (`IndexError`), the guard fails, or it passes with a truthy cell. */
  datatype Slot = Raises | Skipped | Present(cell: Cell)

  function SlotAt(row: seq<Cell>, idx: int): (r: Slot)
    ensures r.Present? ==> 0 <= idx < |row| && r.cell == row[idx] && r.cell.Truthy()
    ensures r.Raises? <==> |row| <= idx
    ensures r.Skipped? <==> idx < 0 || (idx < |row| && !row[idx].Truthy())
  {
    if idx < 0 then Skipped
    else if idx >= |row| then Raises
    else if row[idx].Truthy() then Present(row[idx])
    else Skipped
  }

  /** `int(row[set_idx])` behind the guard, 1 otherwise. */
  function RowSet(c: Columns, row: seq<Cell>): Option<int> {
    match SlotAt(row, c.set_)
    case Raises => None
    case Skipped => Some(1)
    case Present(x) => x.Int()
  }

  /** `int(row[num_idx])` behind the guard, else `row_idx - 1`, which for the
      `k`-th data row (`row_idx = k + 2`) is `k + 1`. */
  function RowNumber(c: Columns, row: seq<Cell>, k: nat): Option<int> {
    match SlotAt(row, c.number)
    case Raises => None
    case Skipped => Some(k + 1)
    case Present(x) => x.Int()
  }

  /** `str(row[text_idx])` behind the guard, else `str(row[0]) if row[0] else ''`. */
  function RowText(c: Columns, row: seq<Cell>): Option<string> {
    match SlotAt(row, c.text)
    case Raises => None
    case Present(x) => Some(x.Str())
    case Skipped =>
      if |row| == 0 then None
      else Some(if row[0].Truthy() then row[0].Str() else "")
  }

  function RowOptions(c: Columns, row: seq<Cell>): (r: Option<seq<string>>)
    ensures r.Some? ==> |r.value| == 5
  {
    match SlotAt(row, c.options)
    case Raises => None
    case Skipped => Some(OptionsOf(None))
    case Present(x) => Some(OptionsOf(Some(x.Str())))
  }

  function RowCorrect(c: Columns, row: seq<Cell>): (r: Option<nat>)
    ensures r.Some? ==> r.value < 5
  {
    match SlotAt(row, c.answer)
    case Raises => None
    case Skipped => Some(0)
    case Present(x) => Some(AnswerIndex(x.Str()))
  }

  /** The explanation cell behind the guard; `Some(None)` asks for the
      generated explanation. */
  function RowExplanation(c: Columns, row: seq<Cell>): Option<Option<string>> {
    match SlotAt(row, c.explanation)
    case Raises => None
    case Skipped => Some(None)
    case Present(x) => Some(Some(x.Str()))
  }

  /** One turn of the data-row loop; `None` when a cell access or `int()` raises. */
  function RowEntry(c: Columns, row: seq<Cell>, k: nat): (r: Option<Entry>)
    ensures r.Some? ==> |r.value.question.options| == 5 && r.value.question.WellFormed()
    ensures r.None? <==>
      || RowSet(c, row).None? || RowNumber(c, row, k).None? || RowText(c, row).None?
      || RowOptions(c, row).None? || RowCorrect(c, row).None? || RowExplanation(c, row).None?
  {
    var setNo := RowSet(c, row);
    var number := RowNumber(c, row, k);
    var text := RowText(c, row);
    var options := RowOptions(c, row);
    var correct := RowCorrect(c, row);
    var explanation := RowExplanation(c, row);
    if setNo.None? || number.None? || text.None? || options.None? || correct.None? || explanation.None? then None
    else Some(Entry(setNo.value, Assemble(number.value, text.value, options.value, correct.value, explanation.value)))
  }

  /** The data rows decoded in order; `None` as soon as one raises. */
  function Entries(c: Columns, rows: seq<seq<Cell>>): (r: Option<seq<Entry>>)
    ensures r.Some? <==> forall k :: 0 <= k < |rows| ==> RowEntry(c, rows[k], k).Some?
    ensures r.Some? ==> |r.value| == |rows|
    ensures r.Some? ==> forall k :: 0 <= k < |rows| ==> r.value[k] == RowEntry(c, rows[k], k).value
  {
    AllOrNone((row, k) => RowEntry(c, row, k), rows)
  }

  /** `extract_questions_from_excel` of api/app.py: the set dictionary, or
      `None` when some data row raised. */
  function Extract(wb: Workbook): (r: Option<Bank>)
    ensures r.Some? ==> r.value.Valid()
    ensures r.None? <==>
      exists k :: 0 <= k < |DataRows(wb)| && RowEntry(ColumnsOf(Headers(wb)), DataRows(wb)[k], k).None?
  {
    match Entries(ColumnsOf(Headers(wb)), DataRows(wb))
    case None => None
    case Some(es) => Some(Group(es))
  }

  /** What a successful load holds, as for the pandas loader: every named
      set, each set's non-blank questions in order, sets in order of first
      appearance, every non-blank row served once. */
  lemma ExtractGroups(wb: Workbook)
    requires Extract(wb).Some?
    ensures var es := Entries(ColumnsOf(Headers(wb)), DataRows(wb)).value;
      var b := Extract(wb).value;
      && b.buckets.Keys == SetsOf(es)
      && (forall s :: b.Bucket(s) == KeptIn(es, s))
      && InFirstOrder(es, b.order)
      && multiset(Flatten(b)) == multiset(ServedOf(es))
  {
    var es := Entries(ColumnsOf(Headers(wb)), DataRows(wb)).value;
    GroupContents(es);
    GroupOrder(es);
    FlattenGroup(es);
  }

  /** Unlike the pandas loader, a set cell that is empty, `None` or 0 does not
      raise: the guard skips it and the row goes to set 1. */
  lemma FalsySetCellIsSetOne(c: Columns, row: seq<Cell>, k: nat)
    requires 0 <= c.set_ < |row| && !row[c.set_].Truthy()
    requires RowEntry(c, row, k).Some?
    ensures RowEntry(c, row, k).value.setNo == 1
  {
  }

  /** An empty text cell does not make the row blank: the guard falls back to
      the row's first cell, so the question's text becomes, say, its set number. */
  lemma EmptyTextTakesFirstCell(c: Columns, row: seq<Cell>, k: nat)
    requires 0 <= c.text < |row| && !row[c.text].Truthy()
    requires RowEntry(c, row, k).Some?
    ensures RowEntry(c, row, k).value.question.text == if row[0].Truthy() then row[0].Str() else ""
  {
  }

  /** A column the header lacks, or a falsy cell in it, gives that field its
      default: the row's position as number, the five placeholders, the
      first option as the correct one, the generated explanation. */
  lemma SkippedCellsTakeDefaults(c: Columns, row: seq<Cell>, k: nat)
    requires RowEntry(c, row, k).Some?
    ensures var q := RowEntry(c, row, k).value.question;
      && (SlotAt(row, c.number).Skipped? ==> q.number == k + 1)
      && (SlotAt(row, c.options).Skipped? ==> q.options == Placeholders())
      && (SlotAt(row, c.answer).Skipped? ==> q.correct == 0)
      && (SlotAt(row, c.explanation).Skipped? ==> q.answer == Explanation(q.number, q.options[q.correct]))
  {
  }

  /** A data row shorter than the header's known columns raises, and the
      whole load fails. */
  lemma ShortRowFailsLoad(wb: Workbook, k: nat)
    requires k < |DataRows(wb)|
    requires |DataRows(wb)[k]| <= ColumnsOf(Headers(wb)).set_
    ensures Extract(wb) == None
  {
    assert RowSet(ColumnsOf(Headers(wb)), DataRows(wb)[k]).None?;
  }

  /** A question the workbook can hold and give back unchanged: besides what
      the option cell needs, no cell the guards test may be falsy. */
  predicate Storable(e: Entry) {
    && |e.question.options| == 5
    && e.question.correct < 5
    && (forall k :: 0 <= k < 5 ==> NoMarker(e.question.options[k]))
    && (forall k :: 0 <= k < 5 ==> e.question.options[k] == Strip(e.question.options[k]))
    && e.setNo != 0 && e.question.number != 0
    && e.question.text != [] && e.question.answer != []
  }

  /** The header row of the question file. */
  const HeaderRow: seq<Cell> :=
    [Text(SetColumn), Text(NumberColumn), Text(TextColumn), Text(OptionsColumn), Text(AnswerColumn), Text(ExplanationColumn)]

  /** The row a question is stored as: numbers as integer cells, the options
      behind their markers in one text cell. */
  function StoredRow(e: Entry): seq<Cell>
    requires |e.question.options| == 5
  {
    [Num(e.setNo), Num(e.question.number), Text(e.question.text),
     Text(Render(e.question.options)), Num(e.question.correct + 1), Text(e.question.answer)]
  }

  /** `headers.index` finds the first occurrence. */
  lemma IndexAt(hs: seq<string>, name: string, k: nat)
    requires k < |hs| && hs[k] == name
    requires forall j :: 0 <= j < k ==> hs[j] != name
    ensures IndexOf(hs, name) == k
  {
  }

  /** A header naming the six columns in order puts them at positions 0 to 5. */
  lemma ColumnsInOrder(hs: seq<string>)
    requires |hs| == 6 && hs[0] == SetColumn && hs[1] == NumberColumn && hs[2] == TextColumn
    requires hs[3] == OptionsColumn && hs[4] == AnswerColumn && hs[5] == ExplanationColumn
    ensures ColumnsOf(hs) == Columns(0, 1, 2, 3, 4, 5)
  {
    IndexAt(hs, SetColumn, 0);
    IndexAt(hs, NumberColumn, 1);
    IndexAt(hs, TextColumn, 2);
    IndexAt(hs, OptionsColumn, 3);
    IndexAt(hs, AnswerColumn, 4);
    IndexAt(hs, ExplanationColumn, 5);
  }

  lemma HeaderColumns(rows: seq<seq<Cell>>)
    ensures ColumnsOf(Headers(Workbook([HeaderRow] + rows))) == Columns(0, 1, 2, 3, 4, 5)
  {
    var hs := Headers(Workbook([HeaderRow] + rows));
    assert hs == [SetColumn, NumberColumn, TextColumn, OptionsColumn, AnswerColumn, ExplanationColumn];
    ColumnsInOrder(hs);
  }

  /** `row` holds the cells of `e` where `c` expects them. */
  predicate Holds(c: Columns, row: seq<Cell>, e: Entry)
    requires |e.question.options| == 5
  {
    && 0 <= c.set_ < |row| && row[c.set_] == Num(e.setNo)
    && 0 <= c.number < |row| && row[c.number] == Num(e.question.number)
    && 0 <= c.text < |row| && row[c.text] == Text(e.question.text)
    && 0 <= c.options < |row| && row[c.options] == Text(Render(e.question.options))
    && 0 <= c.answer < |row| && row[c.answer] == Num(e.question.correct + 1)
    && 0 <= c.explanation < |row| && row[c.explanation] == Text(e.question.answer)
  }

  lemma StoredRowHolds(e: Entry)
    requires |e.question.options| == 5
    ensures Holds(Columns(0, 1, 2, 3, 4, 5), StoredRow(e), e)
  {
  }

  /** The option cell always starts with ①, so it is never falsy. */
  lemma RenderedTruthy(ts: seq<string>)
    requires |ts| == 5
    ensures Render(ts) != []
  {
    assert Render(ts) == [Marker(1)] + ts[0] + RenderFrom(ts, 2);
  }

  lemma HeldOptions(c: Columns, row: seq<Cell>, e: Entry)
    requires Storable(e) && Holds(c, row, e)
    ensures RowOptions(c, row) == Some(e.question.options)
  {
    RenderedTruthy(e.question.options);
    assert SlotAt(row, c.options) == Present(Text(Render(e.question.options)));
    RenderRoundTrip(e.question.options);
  }

  lemma HeldCorrect(c: Columns, row: seq<Cell>, e: Entry)
    requires Storable(e) && Holds(c, row, e)
    ensures RowCorrect(c, row) == Some(e.question.correct)
  {
    assert SlotAt(row, c.answer) == Present(Num(e.question.correct + 1));
    AnswerNamesOption(e.question.correct + 1);
  }

  lemma HeldFields(c: Columns, row: seq<Cell>, e: Entry, k: nat)
    requires |e.question.options| == 5 && Holds(c, row, e)
    requires e.setNo != 0 && e.question.number != 0 && e.question.text != [] && e.question.answer != []
    ensures RowSet(c, row) == Some(e.setNo)
    ensures RowNumber(c, row, k) == Some(e.question.number)
    ensures RowText(c, row) == Some(e.question.text)
    ensures RowExplanation(c, row) == Some(Some(e.question.answer))
  {
    assert SlotAt(row, c.set_) == Present(Num(e.setNo));
    assert SlotAt(row, c.number) == Present(Num(e.question.number));
    assert SlotAt(row, c.text) == Present(Text(e.question.text));
    assert SlotAt(row, c.explanation) == Present(Text(e.question.answer));
  }

  /** A row holding a question's cells reads back as that question, in any
      row position. */
  lemma HeldRowReadsBack(c: Columns, row: seq<Cell>, e: Entry, k: nat)
    requires Storable(e) && Holds(c, row, e)
    ensures RowEntry(c, row, k) == Some(e)
  {
    HeldFields(c, row, e, k);
    HeldOptions(c, row, e);
    HeldCorrect(c, row, e);
  }

  /** The workbook that stores `es` under the header row. */
  function StoreBook(es: seq<Entry>): (wb: Workbook)
    requires forall k :: 0 <= k < |es| ==> Storable(es[k])
    ensures |wb.rows| == |es| + 1 && DataRows(wb) == wb.rows[1..]
  {
    Workbook([HeaderRow] + seq(|es|, k requires 0 <= k < |es| && Storable(es[k]) => StoredRow(es[k])))
  }

  lemma EntriesOfDecodedRows(c: Columns, rows: seq<seq<Cell>>, es: seq<Entry>)
    requires |rows| == |es|
    requires forall k :: 0 <= k < |es| ==> RowEntry(c, rows[k], k) == Some(es[k])
    ensures Entries(c, rows) == Some(es)
  {
    var r := Entries(c, rows);
    assert r.Some?;
    assert |r.value| == |es|;
    assert forall k :: 0 <= k < |es| ==> r.value[k] == es[k];
    assert r.value == es;
  }

  /** Loading a stored workbook gives the dictionary grouping its questions. */
  lemma ExtractStored(es: seq<Entry>)
    requires forall k :: 0 <= k < |es| ==> Storable(es[k])
    ensures Extract(StoreBook(es)) == Some(Group(es))
  {
    var wb := StoreBook(es);
    var rows := DataRows(wb);
    assert wb.rows == [HeaderRow] + rows;
    HeaderColumns(rows);
    forall k | 0 <= k < |es| ensures RowEntry(Columns(0, 1, 2, 3, 4, 5), rows[k], k) == Some(es[k]) {
      assert rows[k] == StoredRow(es[k]);
      StoredRowHolds(es[k]);
      HeldRowReadsBack(Columns(0, 1, 2, 3, 4, 5), rows[k], es[k], k);
    }
    EntriesOfDecodedRows(Columns(0, 1, 2, 3, 4, 5), rows, es);
  }
}

=== FILE: wrappers.dfy ===
/** Python's `None`-or-value results, used for every call whose failure the
    source turns into `None` (an exception caught by a blanket `except`). */
module Wrappers {

  datatype Option<+T> = None | Some(value: T) {

    /** The value, or `default` when there is none (Python's `x if x is not None else default`). */
    function GetOr(default: T): T {
      match this
      case Some(v) => v
      case None => default
    }
  }

  /** A loop that applies `f` to every element with its position and gives
      up, returning `None`, at the first failure: how a Python loop inside a
      blanket `try` behaves. */
  function AllOrNone<A, B>(f: (A, nat) -> Option<B>, xs: seq<A>): (r: Option<seq<B>>)
    ensures r.Some? <==> forall k :: 0 <= k < |xs| ==> f(xs[k], k).Some?
    ensures r.Some? ==> |r.value| == |xs|
    ensures r.Some? ==> forall k :: 0 <= k < |xs| ==> r.value[k] == f(xs[k], k).value
  {
    if xs == [] then Some([])
    else
      var n := |xs| - 1;
      var prefix := AllOrNone(f, xs[..n]);
      var last := f(xs[n], n);
      assert forall k :: 0 <= k < n ==> xs[..n][k] == xs[k];
      if prefix.None? || last.None? then None
      else
        var r := prefix.value + [last.value];
        assert forall k :: 0 <= k < |xs| ==> r[k] == f(xs[k], k).value by {
          forall k | 0 <= k < |xs| ensures r[k] == f(xs[k], k).value {
            if k < n {
              assert xs[..n][k] == xs[k];
            }
          }
        }
        Some(r)
  }

  /** The position of the first of `keys` that is among `names`, -1 when none is. */
  function FirstIn<T>(keys: seq<T>, names: set<T>): (i: int)
    ensures -1 <= i < |keys|
    ensures i == -1 <==> forall j :: 0 <= j < |keys| ==> keys[j] !in names
    ensures i >= 0 ==> keys[i] in names
    ensures forall j :: 0 <= j < i ==> keys[j] !in names
  {
    if keys == [] then -1
    else if keys[0] in names then 0
    else
      var i := FirstIn(keys[1..], names);
      assert forall j :: 1 <= j < |keys| ==> keys[j] == keys[1..][j - 1];
      if i == -1 then -1 else i + 1
  }

  /** Concatenation is associative. */
  lemma AppendAssoc<T>(x: seq<T>, y: seq<T>, z: seq<T>)
    ensures (x + y) + z == x + (y + z)
  {
  }

  /** A non-empty sequence is its front followed by its last element. */
  lemma SplitLast<T>(s: seq<T>)
    requires s != []
    ensures s == s[..|s| - 1] + [s[|s| - 1]]
  {
  }

  /** A property of every element of two sequences holds of every element
      of their concatenation. */
  lemma AllOfConcat<T>(x: seq<T>, y: seq<T>, p: T -> bool)
    requires forall k :: 0 <= k < |x| ==> p(x[k])
    requires forall k :: 0 <= k < |y| ==> p(y[k])
    ensures forall k :: 0 <= k < |x + y| ==> p((x + y)[k])
  {
    forall k | 0 <= k < |x + y| ensures p((x + y)[k]) {
      if k < |x| { assert (x + y)[k] == x[k]; } else { assert (x + y)[k] == y[k - |x|]; }
    }
  }
}
